=== FILE: README.md ===
# University management back end: accounts, authentication and faculty records

A Dafny model of the service layer of a university management back end
built with Express and Mongoose. Each account is a **User** with a custom
id, a role, a password digest, a status, a tombstone flag and a password
change stamp. Each account belongs to one role **profile**, which is a
student, faculty or admin record. The model covers four source files:

- **Authentication** (`auth_service.dfy`) has five flows: login, change
  password, refresh token, forget password and reset password. Each flow
  runs the same ordered account checks: the account exists, then it is not
  deleted, then it is not blocked. Login and change-password then match the
  password. Refresh compares the token's issue time with the last password
  change. Reset binds the token to the requested account. Login, refresh
  and forget-password are functions over the accounts, so they never
  change them. Change- and reset-password are methods that overwrite three
  fields of one account.
- **Provisioning** (`user_service.dfy`) creates an account and its profile
  inside one transaction. The transaction is a snapshot of the collections
  that is restored on every failure branch. Either both records are
  stored and linked, or no collection changes and the failure is reported
  as an aborted transaction. The same file holds the caller's own profile
  lookup (`getMe`) and the status change.
- **Faculty schema** (`faculty_model.dfy`) covers:
  - the required fields (a required string must be non-empty);
  - the gender and blood-group enumerations;
  - the unique `id`, `user` and `email`, enforced over tombstoned records
    too;
  - the `isDeleted` default;
  - the `find`/`findOne` hooks that hide tombstoned records.
- **Faculty services** (`faculty_service.dfy`) cover:
  - the single lookup;
  - the soft-delete cascade onto the linked account, again as a
    transaction;
  - the partial update. It flattens the nested `name` object into dotted
    `name.<field>` paths in a loop, then applies the update document under
    the schema's validators and unique indexes.

The store (`store.dfy`) is a class `Db` with these fields:

- the accounts, a map keyed by custom id;
- the three profile collections, maps keyed by the internal `_id`;
- the academic semester and department identities the creators look up;
- the `_id` allocator.

`Db.Valid()` is the store invariant: accounts are filed under their own
id, no two accounts share an `_id`, every account and profile `_id` is
below the allocator, and the faculty collection satisfies its schema and
unique indexes. Every state-changing method preserves it.

The store takes outside collaborators as parameters:

- The id generator's answer is a `Result<string>`.
- The image host is a total function `(name, path) -> Result<url>`.
- What the driver does with each write is a `Fault`: success, a write that
  returns no record, or an exception. This keeps the "returned zero
  records" branches of the services reachable.
- The current time is a natural number `now`.

Password hashing is an injective tag. A signed token carries its claims
`{userId, role}`, the key that signed it (access, refresh, or anything
else) and its issue time, the `iat` claim of section 4.1.6 of RFC 7519.

## Model

| member | source | states |
|---|---|---|
| Records.NewUser | src/modules/user/user.service.ts:60-60 | The stored account keeps the generated id, the allocated `_id`, the role and the email of the draft. Its digest matches the draft password. It starts neither deleted nor blocked, and it has no password-change stamp. |
| FacultyModel.WithDefaults | src/modules/faculty/faculty.model.ts:81-84 | `isDeleted` becomes false when absent and keeps its value when given. Every other path is unchanged. |
| FacultyModel.WriteRejection | src/modules/faculty/faculty.model.ts:5-89 | A write is accepted exactly when the record passes the required and enum validators and no other record shares its `id`, `user` or `email`. Validation failures are reported before duplicate keys. |
| FacultyModel.Insert | src/modules/faculty/faculty.model.ts:10-89 | The insert succeeds exactly when the defaulted record is valid and unique. It then adds exactly the defaulted record `WithDefaults(p)` at the new identity, leaves the others unchanged, and keeps the collection valid. |
| FacultyModel.FindById | src/modules/faculty/faculty.model.ts:94-101 | `findById` (and so `isFacultyExists`) returns the record exactly when it exists and is not tombstoned. |
| FacultyModel.Find | src/modules/faculty/faculty.model.ts:90-93 | `find` returns exactly the matching records whose `isDeleted` is not true. |
| FacultyModel.TombstoneHides | src/modules/faculty/faculty.model.ts:90-97 | Setting the tombstone makes `findById` report the record absent. It removes exactly that record from every `find` result. |
| FacultyModel.TombstoneKeepsUniqueValues | src/modules/faculty/faculty.model.ts:39-43 | A tombstoned record is invisible to lookups but still holds its email. A new record with that email is refused. |
| FacultyModel.MissingRequiredFieldRejected | src/modules/faculty/faculty.model.ts:5-76 | A record missing any required path is refused with a validation error, whatever else it holds. |
| FacultyModel.TombstonePreservesValidity | src/modules/faculty/faculty.model.ts:81-84 | Setting the tombstone keeps the collection valid and unique. |
| FacultyModel.ReplacePreservesValidity | src/modules/faculty/faculty.service.ts:133-136 | Replacing a record with one the validators and the other records' unique values accept keeps the collection valid. |
| Store.UpdateByOid | src/modules/faculty/faculty.service.ts:95-99 | `User.findByIdAndUpdate` applies the update to the account with that `_id`. Every other account keeps its value, and the key set is unchanged. |
| Store.Db.CreateUser | src/modules/user/user.service.ts:60-60 | A duplicate custom id is refused. A driver exception is reported, and a write that returns no record changes nothing. On success exactly one account is added under the new id, and the invariant is kept. |
| Store.Db.CreateProfile | src/modules/user/user.service.ts:70-70 | A faculty record that the schema or the unique indexes refuse gets that refusal. On success exactly the chosen collection gains the stored record at the fresh `_id`, and the other two collections are unchanged. |
| AuthService.CheckAccount | src/modules/Auth/auth.service.ts:13-24 | The checks run in order: missing gives 404, deleted gives 403 "deleted", blocked gives 403 with the flow's wording. The check passes exactly for an active account. |
| AuthService.LoginUser | src/modules/Auth/auth.service.ts:11-49 | Login succeeds exactly when the account is active and the password matches. A wrong password gives 404. Both tokens carry `{id, role}` of the stored account, one signed with the access key and one with the refresh key. The must-change flag is returned as stored. |
| AuthService.LoginCheckOrder | src/modules/Auth/auth.service.ts:13-28 | A deleted account reports "deleted" even when it is also blocked or the password is wrong. A blocked account reports "blocked" before the password is looked at. |
| AuthService.ChangePasswordCheck | src/modules/Auth/auth.service.ts:55-72 | The same ordered account checks, with this flow's wording, then the old-password match. |
| AuthService.WithNewPassword | src/modules/Auth/auth.service.ts:73-87 | The new digest matches the new password, the must-change flag is false and the stamp is `now`. All other fields keep their values. |
| AuthService.PasswordUpdated | src/modules/Auth/auth.service.ts:77-87 | `findOneAndUpdate({id, role})` rewrites only the account with that id and that role. When none matches, nothing changes. |
| AuthService.PasswordUpdateTouchesOnlyCredentials | src/modules/Auth/auth.service.ts:77-87 | Every account keeps every field except `password`, `needsPasswordChange` and `passwordChangedAt`. |
| AuthService.ChangePassword | src/modules/Auth/auth.service.ts:50-89 | A failed check leaves the accounts unchanged and reports that check's failure. Otherwise the credentials are updated on the account matched by the caller's `(userId, role)`. |
| AuthService.RefreshToken | src/modules/Auth/auth.service.ts:90-140 | The token is verified against the refresh key before the account checks. A token issued before the last password change gives 401. Otherwise the result is a new access token with the stored account's claims. |
| AuthService.RefreshRejectedAfterPasswordChange | src/modules/Auth/auth.service.ts:119-124 | A refresh token issued before a password change is refused after it. The same token is accepted beforehand when the account was not already stale for it. |
| AuthService.RefreshWithoutPasswordChange | src/modules/Auth/auth.service.ts:119-124 | An active account without a password-change stamp never meets the issued-before-change refusal. |
| AuthService.LoginAfterPasswordChange | src/modules/Auth/auth.service.ts:73-87 | After a change the new password logs in with the must-change flag off, and the old one gets the 404 mismatch. |
| AuthService.ForgetPassword | src/modules/Auth/auth.service.ts:141-174 | The mail goes to the account's email. Its link carries the account id and a token with the account's claims, signed with the access key. |
| AuthService.ForgottenPasswordLinkResets | src/modules/Auth/auth.service.ts:166-171 | The id and token in the forget-password link pass every reset check. |
| AuthService.ResetPasswordCheck | src/modules/Auth/auth.service.ts:181-203 | The account checks come first, then the access-key verification. A token for another user id gives 403 "You are forbidden!". Success yields the token's claims. |
| AuthService.ResetPassword | src/modules/Auth/auth.service.ts:175-216 | A failed check leaves the accounts unchanged. Otherwise the credentials are updated on the account matched by the token's `(userId, role)`. |
| AuthService.ResetBoundToTokenIdentity | src/modules/Auth/auth.service.ts:199-203 | A reset token issued for one account cannot reset a different active account. |
| AuthService.LoginAccessTokenPassesResetCheck | src/modules/Auth/auth.service.ts:34-38 | Reset tokens and access tokens share the access key, so the access token a login returns also passes the reset checks. |
| AuthService.LoginTokensKeepTheirRoles | src/modules/Auth/auth.service.ts:34-43 | Login's access token is refused by refresh. Its refresh token yields a new access token with the stored account's claims, unless a password change is stamped after the login. |
| AuthService.ResetTokenOutlivesReset | src/modules/Auth/auth.service.ts:199-215 | The reset checks ignore the password-change stamp, so a reset token still passes them after the reset it was used for. |
| FacultyService.GetSingleFacultyFromDB | src/modules/faculty/faculty.service.ts:72-78 | The record is returned exactly when it exists and is not tombstoned. Otherwise the result is 404 "Faculty does not exists". |
| FacultyService.Tombstoned | src/modules/faculty/faculty.service.ts:86-90 | Only the tombstone of that one record changes. |
| FacultyService.DeleteOutcome | src/modules/faculty/faculty.service.ts:86-106 | The writes succeed exactly when both land and the referenced account exists. A thrown faculty write gives that exception. A faculty write that returns no record gives 400 "Failed to delete faculty". After a landed faculty write, a thrown account write gives that exception, and an empty account write or a missing account gives 400 "Failed to delete user". |
| FacultyService.DeleteInTransaction | src/modules/faculty/faculty.service.ts:86-106 | Success needs both writes to land and the referenced account to exist. A faculty write that returns no record gives "Failed to delete faculty". An account write that returns no record, or finds no account, gives "Failed to delete user". A driver exception on either write is passed on as it is, and every failure is the one `DeleteOutcome` gives. On success both tombstones are set and the updated faculty is returned. |
| FacultyService.DeleteSingleFacultyFromDB | src/modules/faculty/faculty.service.ts:79-114 | A missing or tombstoned faculty gives 404 before the transaction. On any later failure the transaction is aborted, neither flag stays set, and the failure is the one `DeleteOutcome` gives, wrapped as an aborted transaction (so an empty faculty write gives an aborted 400 "Failed to delete faculty"). On success both flags are set together. |
| FacultyService.CascadeHidesBoth | src/modules/faculty/faculty.service.ts:86-102 | After the cascade the faculty lookup reports 404 and login on the linked account reports 403 "deleted". |
| FacultyService.Overlay | src/modules/faculty/faculty.service.ts:127-131 | The key set is the base keys plus `name.<k>` for every sub-field. Each `name.<k>` holds that sub-field's value, and every other key is copied. |
| FacultyService.OverlayStep | src/modules/faculty/faculty.service.ts:128-130 | Adding one sub-field to the overlay equals one assignment `doc["name." + k] = v`. |
| FacultyService.Flattened | src/modules/faculty/faculty.service.ts:122-131 | The update document has no key `name`. Its key set is the other payload keys plus `name.<k>` for each sub-field, with values carried over. |
| FacultyService.EmptyNameAddsNothing | src/modules/faculty/faculty.service.ts:127-136 | An absent or empty `name` adds no keys, so the document is the rest of the payload and stored name parts stay. |
| FacultyService.FlattenUpdate | src/modules/faculty/faculty.service.ts:122-131 | The loop builds exactly the flattened document. |
| FacultyService.SetText | src/modules/faculty/faculty.service.ts:133-136 | A path the document sets gets its string value, and a nested object there is a cast error. A path it does not set keeps its value. |
| FacultyService.ApplyUpdate | src/modules/faculty/faculty.service.ts:133-136 | Applying the document succeeds exactly when every schema string path it sets holds a string. Each such path then holds the document's value, the other paths keep theirs, and the reference and tombstone fields are untouched. |
| FacultyService.UpdateSingleFacultyIntoDB | src/modules/faculty/faculty.service.ts:115-138 | A missing or tombstoned faculty gives 400 "Faculty do not found". Otherwise the flattened document is applied, and the write succeeds exactly when the validators and the other records' unique values accept the result. A failure changes nothing. |
| FacultyService.FirstNameUpdateKeepsOtherPaths | src/modules/faculty/faculty.service.ts:127-136 | An update whose `name` sets only `firstName` changes that path and no other string path. |
| UserService.AccountPassword | src/modules/user/user.service.ts:33-33 | A non-empty given password is used, and an empty one falls back to the configured default. |
| UserService.ImageName | src/modules/user/user.service.ts:51-51 | The image name starts with the new custom id. |
| UserService.WithImage | src/modules/user/user.service.ts:50-57 | With no file the payload is unchanged. With a file, the image is uploaded as `<id><firstName>`, `profileImg` becomes the returned URL, and an upload failure is reported. No other path changes. |
| UserService.Linked | src/modules/user/user.service.ts:66-67 | The profile's `id` is the account's custom id and its `user` is the account's `_id`. Nothing else changes. |
| UserService.DraftFor | src/modules/user/user.service.ts:91-93 | The draft carries the password, the creator's role and the payload's email. |
| UserService.ProvisionOutcome | src/modules/user/user.service.ts:147-169 | The steps succeed exactly when the id is generated, the upload succeeds, the id is new, both writes land, and (for faculty) the schema and unique indexes accept the record. Each failing step gives its own failure, checked in the order the steps run: the id generator's failure, the upload's failure, a duplicate `id` key, a thrown account insert as that exception, an empty account insert as 400 "Failed to create user", the faculty schema or unique-index refusal, a thrown profile insert as that exception, and an empty profile insert as 400 "Failed to create student/faculty/admin". |
| UserService.ProvisionSteps | src/modules/user/user.service.ts:147-169 | Success holds exactly when `ProvisionOutcome` reports no failure. Otherwise the failure is the one `ProvisionOutcome` gives for the first failing step: the id generator, the upload, a duplicate id, a thrown or empty account write, or a refused, thrown or empty profile write. On success it adds one account and one linked profile and leaves the other collections unchanged. |
| UserService.ProvisionInTransaction | src/modules/user/user.service.ts:144-174 | Either the account and its linked profile are both stored, or no collection changes and the failure is an aborted transaction. |
| UserService.CreateStudentIntoDB | src/modules/user/user.service.ts:24-83 | An unknown admission semester gives "Failed to create user" before any write. Once the semester is found, creation succeeds exactly when `ProvisionOutcome` reports no failure, and every failure is that failure wrapped as an aborted transaction. Failure leaves every collection unchanged. Success adds a student account and returns and stores the student profile: the payload with the uploaded image URL (or its own `profileImg` when no file is given), linked to the new account. |
| UserService.CreateFacultyIntoDB | src/modules/user/user.service.ts:84-131 | An unknown department gives 400 before any write. Once the department is found, creation succeeds exactly when `ProvisionOutcome` reports no failure, and every failure is that failure wrapped as an aborted transaction. An email already held by a faculty record, tombstoned or not, makes creation fail. Success adds a faculty account and returns and stores a valid faculty record: the payload with the uploaded image URL (or its own `profileImg` when no file is given), linked to the new account, with `isDeleted` defaulted. |
| UserService.CreateAdminIntoDB | src/modules/user/user.service.ts:132-175 | There is no lookup before the transaction. Creation succeeds exactly when `ProvisionOutcome` reports no failure, and every failure is that failure wrapped as an aborted transaction. Success adds an admin account and returns and stores the admin profile: the payload with the uploaded image URL (or its own `profileImg` when no file is given), linked to the new account. |
| UserService.NewAccountLogsIn | src/modules/Auth/auth.service.ts:11-48 | A freshly provisioned account logs in with its creation password and is told to change it. |
| UserService.FirstWithId | src/modules/user/user.service.ts:179-186 | The result is the first record in `_id` order with the custom id; with the filter on it must also be visible. Every earlier record with that id is hidden by the filter. |
| UserService.AccountWithOid | src/modules/user/user.service.ts:179-179 | `populate('user')` yields the account with the referenced `_id` exactly when one exists. |
| UserService.GetMe | src/modules/user/user.service.ts:176-190 | The role picks the collection, and a super admin gets null. The result is a record with the caller's custom id, visible when faculty, with its account populated by the stored account itself. Null means no such record (visible, for faculty). |
| UserService.ChangeStatus | src/modules/user/user.service.ts:191-194 | Only the status of the account with that `_id` changes. The updated account is returned, or null when no account has that `_id`. |
| UserService.BlockedAccountCannotLogIn | src/modules/Auth/auth.service.ts:21-24 | Setting the status to blocked shuts the account out of login, unless it is deleted, which is reported first. |

## Left out

- The token model does not include expiry, the secrets, or the encoding. `jwt.verify` failing (bad signature or expired) is one failure, `TokenRejected`. The HTTP status it maps to lives in an error handler that is not part of this model.
- The token model cannot represent a token signed with an expiry pair other than the one it is verified under.
- bcrypt salting and cost factor are not modelled. The digest is an injective tag, so a password matches exactly the digest of itself.
- `isJWTIssuedBeforePasswordChanged` is in user.model, which is not part of this model. It is taken as "issued strictly before the change", with times as natural numbers.
- The user schema (user.model) is not part of this model. Its unique custom `id`, the `in-progress` status default, the `needsPasswordChange` default of true and hashing on save are assumed.
- The id generators (user.utils) are an oracle. Their format and their dependence on the admission semester or the last stored id are not modelled.
- Image upload is an oracle on the image name and the file path. The mailer is left out: the forget-password result is the mail it would be handed, and sending is not awaited in the source.
- `getAllFacultiesFromDB` and the commented-out query code are left out. Query composition goes through a builder that is not part of this model.
- The student and admin schemas and models are not part of this model. Their inserts apply no validators, defaults or unique indexes, and `getMe` applies no tombstone filter on their collections.
- The gender and blood-group sets are taken from the student and admin interfaces, because faculty.constant is not part of this model.
- UserService.GetMe: a `findOne` without sort returns the first matching record in `_id` order, which stands for the collection's natural order.
- FacultyService.ApplyUpdate models only the fourteen string paths. Updates to the ObjectId and boolean paths (`user`, `academicDepartment`, `academicFaculty`, `admissionSemester`, `isDeleted`) are dropped, and paths the schema lacks are dropped as strict mode does.
- FacultyService.NameEntries: a `name` that is not an object contributes no paths. In the source its character indexes become `name.0`, `name.1` and so on, which strict mode then drops.
- FacultyService.UpdateSingleFacultyIntoDB runs the validators over the whole updated record. Because every stored record is valid, this agrees with running them on the updated paths only.
- Timestamps (`createdAt`, `updatedAt`), `__v`, `console.log` and population of the academic references are left out.
- Identifiers arrive at the services as strings and Mongoose casts them to ObjectId (faculty lookups, the faculty delete and update, the status change). The model takes `_id`s as natural numbers, so the cast error for a malformed id string is not represented.
- The creators write the custom id, the `_id` link and the image URL into the caller's payload object in place, and those writes stay on that object after an abort. The model builds a new profile value instead, so this aliasing is not represented.
- An image uploaded before the transaction aborts stays on the image host. The model has no image store, so the leftover upload is not represented.
- Concurrency and MongoDB session internals are left out. The transaction is a snapshot restored on failure. An aborted transaction still consumes the `_id`s it allocated.
- AuthService.RefreshToken: the source destructures `userId` and `iat` from the verified payload. The model takes the token's claims as that payload, so a token whose claims lack them cannot be expressed.

=== FILE: auth_service.dfy ===
/** The five authentication flows. Each runs the same ordered account checks
    (exists, not deleted, not blocked); login and change-password then match
    the password, refresh compares the token's issue time with the last
    password change, and reset binds the token to the requested account.
    Login, refresh and forget-password only read the accounts; change- and
    reset-password overwrite three fields of one account. */
module AuthService {
  import opened Common
  import opened Records
  import opened Tokens
  import Store

  datatype LoginPayload = LoginPayload(id: string, password: string)
  datatype LoginResult = LoginResult(accessToken: Jwt, refreshToken: Jwt, needsPasswordChange: bool)
  datatype ChangePasswordPayload = ChangePasswordPayload(oldPassword: string, newPassword: string)
  datatype ResetPayload = ResetPayload(id: string, newPassword: string)

  /** The link `reset_password_ui_link?id=<id>&token=<token>`. */
  datatype ResetLink = ResetLink(id: string, token: Jwt)

  /** The message handed to the mailer. */
  datatype ResetMail = ResetMail(to: Option<string>, link: ResetLink)

  const DELETED := "This user is deleted !"
  const PASSWORD_MISMATCH := "Password does not match!"
  const NOT_AUTHORIZED := "You are not authorized !"
  const FORBIDDEN_MISMATCH := "You are forbidden!"
  const NOT_FOUND_SPACED := "This user is not found !"
  const BLOCKED_SPACED := "This user is blocked ! !"

  /** The account exists, is not deleted and is not blocked. */
  predicate Active(users: map<string, User>, id: string) {
    id in users && !users[id].isDeleted && users[id].status != BLOCKED
  }

  /** `isUserExistsByCustomId(id)` followed by the three account checks, in
      the order every flow runs them. Each flow has its own wording for the
      not-found and blocked messages. */
  function CheckAccount(users: map<string, User>, id: string, notFound: string, blocked: string): (r: Result<User>)
    ensures id !in users ==> r == Err(AppError(NOT_FOUND, notFound))
    ensures id in users && users[id].isDeleted ==> r == Err(AppError(FORBIDDEN, DELETED))
    ensures id in users && !users[id].isDeleted && users[id].status == BLOCKED ==>
      r == Err(AppError(FORBIDDEN, blocked))
    ensures r.Ok? <==> Active(users, id)
    ensures r.Ok? ==> r.value == users[id]
  {
    if id !in users then Err(AppError(NOT_FOUND, notFound))
    else if users[id].isDeleted then Err(AppError(FORBIDDEN, DELETED))
    else if users[id].status == BLOCKED then Err(AppError(FORBIDDEN, blocked))
    else Ok(users[id])
  }

  /** `loginUser`. */
  function LoginUser(users: map<string, User>, payload: LoginPayload, now: nat): (r: Result<LoginResult>)
    ensures !Active(users, payload.id) ==>
      r.Err? && r.failure == CheckAccount(users, payload.id, "This user is not found", "This user is blocked").failure
    ensures Active(users, payload.id) && !PasswordMatches(payload.password, users[payload.id].password) ==>
      r == Err(AppError(NOT_FOUND, PASSWORD_MISMATCH))
    ensures r.Ok? <==> Active(users, payload.id) && PasswordMatches(payload.password, users[payload.id].password)
    ensures r.Ok? ==>
      && r.value.accessToken == CreateToken(ClaimsOf(users[payload.id]), AccessKey, now)
      && r.value.refreshToken == CreateToken(ClaimsOf(users[payload.id]), RefreshKey, now)
      && r.value.needsPasswordChange == users[payload.id].needsPasswordChange
  {
    var user :- CheckAccount(users, payload.id, "This user is not found", "This user is blocked");
    if !PasswordMatches(payload.password, user.password) then
      Err(AppError(NOT_FOUND, PASSWORD_MISMATCH))
    else
      var claims := ClaimsOf(user);
      Ok(LoginResult(CreateToken(claims, AccessKey, now), CreateToken(claims, RefreshKey, now),
                     user.needsPasswordChange))
  }

  /** The checks `changePassword` runs before it writes. */
  function ChangePasswordCheck(users: map<string, User>, userData: Claims, oldPassword: string): (r: Result<User>)
    ensures !Active(users, userData.userId) ==>
      r.Err? && r.failure == CheckAccount(users, userData.userId, "This user is not found!", BLOCKED_SPACED).failure
    ensures Active(users, userData.userId) && !PasswordMatches(oldPassword, users[userData.userId].password) ==>
      r == Err(AppError(NOT_FOUND, PASSWORD_MISMATCH))
    ensures r.Ok? <==>
      Active(users, userData.userId) && PasswordMatches(oldPassword, users[userData.userId].password)
  {
    var user :- CheckAccount(users, userData.userId, "This user is not found!", BLOCKED_SPACED);
    if !PasswordMatches(oldPassword, user.password) then Err(AppError(NOT_FOUND, PASSWORD_MISMATCH))
    else Ok(user)
  }

  /** The account after a password change: the new digest, the flag cleared,
      the change time stamped. */
  function WithNewPassword(u: User, newPassword: string, now: nat): (r: User)
    ensures PasswordMatches(newPassword, r.password)
    ensures !r.needsPasswordChange && r.passwordChangedAt == Some(now)
    ensures r.(password := u.password, needsPasswordChange := u.needsPasswordChange,
               passwordChangedAt := u.passwordChangedAt) == u
  {
    u.(password := Hash(newPassword), needsPasswordChange := false, passwordChangedAt := Some(now))
  }

  /** `User.findOneAndUpdate({id, role}, {password, needsPasswordChange: false,
      passwordChangedAt: now})`: nothing changes when no account has both
      that id and that role. */
  function PasswordUpdated(users: map<string, User>, id: string, role: Role, newPassword: string, now: nat)
    : (r: map<string, User>)
    ensures r.Keys == users.Keys
    ensures forall k :: k in users && k != id ==> r[k] == users[k]
    ensures id in users && users[id].role == role ==> r[id] == WithNewPassword(users[id], newPassword, now)
    ensures !(id in users && users[id].role == role) ==> r == users
  {
    if id in users && users[id].role == role then users[id := WithNewPassword(users[id], newPassword, now)]
    else users
  }

  /** Every account keeps all fields but the three credential fields. */
  lemma PasswordUpdateTouchesOnlyCredentials(users: map<string, User>, id: string, role: Role, newPassword: string, now: nat)
    ensures var r := PasswordUpdated(users, id, role, newPassword, now);
      forall k :: k in users ==>
        r[k].(password := users[k].password, needsPasswordChange := users[k].needsPasswordChange,
              passwordChangedAt := users[k].passwordChangedAt) == users[k]
  {
  }

  /** `changePassword`, for the caller identified by `userData`. */
  method ChangePassword(db: Store.Db, userData: Claims, payload: ChangePasswordPayload, now: nat)
    returns (r: Result<()>)
    requires db.Valid()
    modifies db`users
    ensures db.Valid()
    ensures r.Ok? <==> ChangePasswordCheck(old(db.users), userData, payload.oldPassword).Ok?
    ensures r.Err? ==>
      && r.failure == ChangePasswordCheck(old(db.users), userData, payload.oldPassword).failure
      && db.users == old(db.users)
    ensures r.Ok? ==>
      db.users == PasswordUpdated(old(db.users), userData.userId, userData.role, payload.newPassword, now)
  {
    var checked := ChangePasswordCheck(db.users, userData, payload.oldPassword);
    if checked.Err? {
      return Err(checked.failure);
    }
    db.users := PasswordUpdated(db.users, userData.userId, userData.role, payload.newPassword, now);
    r := Ok(());
  }

  /** The token was issued before the account's last password change. */
  predicate Stale(u: User, iat: nat) {
    u.passwordChangedAt.Some? && IssuedBeforePasswordChange(u.passwordChangedAt.value, iat)
  }

  /** `refreshToken`: verify against the refresh key, run the account checks
      on the token's user, refuse a token older than the last password
      change, and issue a fresh access token for the stored account. */
  function RefreshToken(users: map<string, User>, token: Jwt, now: nat): (r: Result<Jwt>)
    ensures token.key != RefreshKey ==> r == Err(TokenRejected)
    ensures token.key == RefreshKey && !Active(users, token.claims.userId) ==>
      r.Err? && r.failure == CheckAccount(users, token.claims.userId, NOT_FOUND_SPACED, BLOCKED_SPACED).failure
    ensures token.key == RefreshKey && Active(users, token.claims.userId)
            && Stale(users[token.claims.userId], token.iat) ==>
      r == Err(AppError(UNAUTHORIZED, NOT_AUTHORIZED))
    ensures r.Ok? <==>
      token.key == RefreshKey && Active(users, token.claims.userId) && !Stale(users[token.claims.userId], token.iat)
    ensures r.Ok? ==> r.value == CreateToken(ClaimsOf(users[token.claims.userId]), AccessKey, now)
  {
    match Verify(token, RefreshKey)
    case None => Err(TokenRejected)
    case Some(decoded) =>
      var user :- CheckAccount(users, decoded.claims.userId, NOT_FOUND_SPACED, BLOCKED_SPACED);
      if user.passwordChangedAt.Some? && IssuedBeforePasswordChange(user.passwordChangedAt.value, decoded.iat) then
        Err(AppError(UNAUTHORIZED, NOT_AUTHORIZED))
      else
        Ok(CreateToken(ClaimsOf(user), AccessKey, now))
  }

  /** `forgetPassword`: after the account checks, a reset token signed with
      the access key and a link carrying the account id and that token. */
  function ForgetPassword(users: map<string, User>, userId: string, now: nat): (r: Result<ResetMail>)
    ensures !Active(users, userId) ==>
      r.Err? && r.failure == CheckAccount(users, userId, NOT_FOUND_SPACED, BLOCKED_SPACED).failure
    ensures r.Ok? <==> Active(users, userId)
    ensures r.Ok? ==>
      && r.value.to == users[userId].email
      && r.value.link.id == users[userId].id
      && r.value.link.token == CreateToken(ClaimsOf(users[userId]), AccessKey, now)
  {
    var user :- CheckAccount(users, userId, NOT_FOUND_SPACED, BLOCKED_SPACED);
    var resetToken := CreateToken(ClaimsOf(user), AccessKey, now);
    Ok(ResetMail(user.email, ResetLink(user.id, resetToken)))
  }

  /** The checks `resetPassword` runs before it writes: the account checks
      come before the token is verified. */
  function ResetPasswordCheck(users: map<string, User>, payload: ResetPayload, token: Jwt): (r: Result<Claims>)
    ensures !Active(users, payload.id) ==>
      r.Err? && r.failure == CheckAccount(users, payload.id, NOT_FOUND_SPACED, BLOCKED_SPACED).failure
    ensures Active(users, payload.id) && token.key != AccessKey ==> r == Err(TokenRejected)
    ensures Active(users, payload.id) && token.key == AccessKey && token.claims.userId != payload.id ==>
      r == Err(AppError(FORBIDDEN, FORBIDDEN_MISMATCH))
    ensures r.Ok? <==> Active(users, payload.id) && token.key == AccessKey && token.claims.userId == payload.id
    ensures r.Ok? ==> r.value == token.claims
  {
    var _ :- CheckAccount(users, payload.id, NOT_FOUND_SPACED, BLOCKED_SPACED);
    match Verify(token, AccessKey)
    case None => Err(TokenRejected)
    case Some(decoded) =>
      if payload.id != decoded.claims.userId then Err(AppError(FORBIDDEN, FORBIDDEN_MISMATCH))
      else Ok(decoded.claims)
  }

  /** `resetPassword`: the write is keyed by the token's `(userId, role)`. */
  method ResetPassword(db: Store.Db, payload: ResetPayload, token: Jwt, now: nat) returns (r: Result<()>)
    requires db.Valid()
    modifies db`users
    ensures db.Valid()
    ensures r.Ok? <==> ResetPasswordCheck(old(db.users), payload, token).Ok?
    ensures r.Err? ==>
      && r.failure == ResetPasswordCheck(old(db.users), payload, token).failure
      && db.users == old(db.users)
    ensures r.Ok? ==>
      db.users == PasswordUpdated(old(db.users), token.claims.userId, token.claims.role, payload.newPassword, now)
  {
    var checked := ResetPasswordCheck(db.users, payload, token);
    if checked.Err? {
      return Err(checked.failure);
    }
    var decoded := checked.value;
    db.users := PasswordUpdated(db.users, decoded.userId, decoded.role, payload.newPassword, now);
    r := Ok(());
  }

  // ---------------------------------------------------------------------
  // Properties across the flows

  /** The checks run in a fixed order: a deleted account reports "deleted"
      even when it is also blocked or the password is wrong, and a blocked
      account reports "blocked" before the password is looked at. */
  lemma LoginCheckOrder(users: map<string, User>, payload: LoginPayload, now: nat)
    requires payload.id in users
    ensures users[payload.id].isDeleted ==> LoginUser(users, payload, now) == Err(AppError(FORBIDDEN, DELETED))
    ensures !users[payload.id].isDeleted && users[payload.id].status == BLOCKED ==>
      LoginUser(users, payload, now) == Err(AppError(FORBIDDEN, "This user is blocked"))
  {
  }

  /** A refresh token issued before a password change is refused after it;
      the same token was accepted before the change when the account had
      no earlier change stamped after the token. */
  lemma RefreshRejectedAfterPasswordChange(users: map<string, User>, id: string, role: Role,
                                           newPassword: string, issued: nat, changed: nat, now: nat)
    requires Active(users, id) && users[id].role == role && issued < changed
    ensures RefreshToken(PasswordUpdated(users, id, role, newPassword, changed),
                         CreateToken(Claims(id, role), RefreshKey, issued), now)
            == Err(AppError(UNAUTHORIZED, NOT_AUTHORIZED))
    ensures !Stale(users[id], issued) ==>
      RefreshToken(users, CreateToken(Claims(id, role), RefreshKey, issued), now).Ok?
  {
    var users' := PasswordUpdated(users, id, role, newPassword, changed);
    assert users'[id] == WithNewPassword(users[id], newPassword, changed);
  }

  /** An account whose password was never changed never meets the
      issued-before-change refusal: every refresh token of an active
      account is accepted. */
  lemma RefreshWithoutPasswordChange(users: map<string, User>, token: Jwt, now: nat)
    requires token.key == RefreshKey && Active(users, token.claims.userId)
    requires users[token.claims.userId].passwordChangedAt == None
    ensures RefreshToken(users, token, now) == Ok(CreateToken(ClaimsOf(users[token.claims.userId]), AccessKey, now))
  {
  }

  /** After a password change the new password logs in, the old one is
      refused with the not-found status, and the must-change flag is off. */
  lemma LoginAfterPasswordChange(users: map<string, User>, id: string, role: Role,
                                 oldPassword: string, newPassword: string, changed: nat, now: nat)
    requires Active(users, id) && users[id].role == role
    ensures var users' := PasswordUpdated(users, id, role, newPassword, changed);
      && LoginUser(users', LoginPayload(id, newPassword), now).Ok?
      && !LoginUser(users', LoginPayload(id, newPassword), now).value.needsPasswordChange
      && (oldPassword != newPassword ==>
            LoginUser(users', LoginPayload(id, oldPassword), now) == Err(AppError(NOT_FOUND, PASSWORD_MISMATCH)))
  {
    var users' := PasswordUpdated(users, id, role, newPassword, changed);
    assert users'[id] == WithNewPassword(users[id], newPassword, changed);
  }

  /** The link a forget-password mail carries passes every reset check. */
  lemma ForgottenPasswordLinkResets(users: map<string, User>, userId: string, newPassword: string, now: nat)
    requires Store.KeyedById(users) && ForgetPassword(users, userId, now).Ok?
    ensures var link := ForgetPassword(users, userId, now).value.link;
      ResetPasswordCheck(users, ResetPayload(link.id, newPassword), link.token) == Ok(ClaimsOf(users[userId]))
  {
  }

  /** A reset token issued for one account cannot reset another active
      account, even though the token itself verifies. */
  lemma ResetBoundToTokenIdentity(users: map<string, User>, tokenFor: string, target: string,
                                  newPassword: string, now: nat)
    requires Store.KeyedById(users) && Active(users, tokenFor) && Active(users, target) && tokenFor != target
    ensures var mail := ForgetPassword(users, tokenFor, now).value;
      ResetPasswordCheck(users, ResetPayload(target, newPassword), mail.link.token)
      == Err(AppError(FORBIDDEN, FORBIDDEN_MISMATCH))
  {
  }

  /** Reset tokens and access tokens are signed alike, so the access token a
      login returns is accepted by the reset checks for the same account. */
  lemma LoginAccessTokenPassesResetCheck(users: map<string, User>, payload: LoginPayload,
                                         newPassword: string, now: nat)
    requires Store.KeyedById(users) && LoginUser(users, payload, now).Ok?
    ensures ResetPasswordCheck(users, ResetPayload(payload.id, newPassword),
                               LoginUser(users, payload, now).value.accessToken).Ok?
  {
  }

  /** The reset checks do not compare the token's issue time with the last
      password change: after a reset, the same reset token passes the checks
      again for as long as it has not expired. */
  lemma ResetTokenOutlivesReset(users: map<string, User>, userId: string, newPassword: string,
                                issued: nat, changed: nat)
    requires Store.KeyedById(users) && Active(users, userId) && issued < changed
    ensures var token := CreateToken(ClaimsOf(users[userId]), AccessKey, issued);
      var users' := PasswordUpdated(users, userId, users[userId].role, newPassword, changed);
      ResetPasswordCheck(users', ResetPayload(userId, newPassword), token).Ok?
  {
    var users' := PasswordUpdated(users, userId, users[userId].role, newPassword, changed);
    assert users'[userId] == WithNewPassword(users[userId], newPassword, changed);
  }

  /** Login's two tokens are not interchangeable: its access token is
      refused by refresh, while its refresh token yields a new access token
      with the same claims unless a password change is stamped after the
      login. */
  lemma LoginTokensKeepTheirRoles(users: map<string, User>, payload: LoginPayload, now: nat, later: nat)
    requires Store.KeyedById(users) && LoginUser(users, payload, now).Ok?
    ensures RefreshToken(users, LoginUser(users, payload, now).value.accessToken, later) == Err(TokenRejected)
    ensures RefreshToken(users, LoginUser(users, payload, now).value.refreshToken, later)
            == if Stale(users[payload.id], now) then Err(AppError(UNAUTHORIZED, NOT_AUTHORIZED))
               else Ok(CreateToken(ClaimsOf(users[payload.id]), AccessKey, later))
  {
  }
}

=== FILE: common.dfy ===
/** Shared vocabulary of the services: optional values, the outcome of a
    service call, and the ways a call can fail. */
module Common {

  datatype Option<+T> = None | Some(value: T) {
    function GetOr(default: T): T {
      match this
      case Some(v) => v
      case None => default
    }
  }

  /** Why a service call failed. */
  datatype Failure =
    /** `throw new AppError(status, message)` in a service. */
    | AppError(status: nat, message: string)
    /** `throw new Error(message)` in a service. */
    | PlainError(message: string)
    /** The token verifier rejected the token (bad signature or expired). */
    | TokenRejected
    /** A schema validator (required, enum) rejected a document. */
    | ValidationError(path: string)
    /** A value of the wrong shape was given for a schema path. */
    | CastError(path: string)
    /** A unique index rejected a write. */
    | DuplicateKey(field: string)
    /** A collaborator outside the model failed (id generator, upload, driver). */
    | External(message: string)
    /** `throw new Error(err)` after a transaction was aborted. */
    | Aborted(cause: Failure)

  /** A service result: `Err` stands for an exception leaving the service. */
  datatype Result<+T> = Ok(value: T) | Err(failure: Failure) {
    predicate IsFailure() {
      Err?
    }

    function PropagateFailure<U>(): Result<U>
      requires Err?
    {
      Err(failure)
    }

    function Extract(): T
      requires Ok?
    {
      value
    }
  }

  // The HTTP status codes the services attach to their errors.
  const BAD_REQUEST: nat := 400
  const UNAUTHORIZED: nat := 401
  const FORBIDDEN: nat := 403
  const NOT_FOUND: nat := 404
}

=== FILE: faculty_model.dfy ===
/** The faculty schema: required fields, enumerated values, unique fields,
    the `isDeleted` default, and the query hooks that hide tombstoned
    records from `find` and `findOne`. */
module FacultyModel {
  import opened Common
  import opened Records

  const GENDERS: set<string> := {"male", "female"}
  const BLOOD_GROUPS: set<string> := {"A+", "A-", "B+", "B-", "AB+", "AB-", "O+", "O-"}

  /** A required string path is satisfied only by a non-empty string. */
  predicate Given(s: Option<string>) {
    s.Some? && s.value != ""
  }

  predicate NameComplete(n: Option<UserName>) {
    n.Some? && Given(n.value.firstName) && Given(n.value.middleName) && Given(n.value.lastName)
  }

  /** Every path the schema marks `required` is present. */
  predicate HasRequiredFields(p: Profile) {
    && Given(p.id)
    && p.user.Some?
    && Given(p.designation)
    && NameComplete(p.name)
    && Given(p.gender)
    && Given(p.email)
    && Given(p.contactNo)
    && Given(p.emergencyContactNo)
    && Given(p.bloodGroup)
    && Given(p.presentAddress)
    && Given(p.permanentAddress)
    && p.academicDepartment.Some?
  }

  /** The enumerated paths hold allowed values when present. */
  predicate InEnums(p: Profile) {
    && (p.gender.Some? ==> p.gender.value in GENDERS)
    && (p.bloodGroup.Some? ==> p.bloodGroup.value in BLOOD_GROUPS)
  }

  /** The document passes the schema validators. */
  predicate RecordValid(p: Profile) {
    HasRequiredFields(p) && InEnums(p)
  }

  /** Two records collide on one of the unique paths `id`, `user`, `email`. */
  predicate Clashes(a: Profile, b: Profile) {
    a.id == b.id || a.user == b.user || a.email == b.email
  }

  /** The unique indexes hold over all records, tombstoned ones included. */
  predicate UniqueFields(fs: map<ObjectId, Profile>) {
    forall a, b :: a in fs && b in fs && a != b ==> !Clashes(fs[a], fs[b])
  }

  predicate CollectionValid(fs: map<ObjectId, Profile>) {
    (forall o :: o in fs ==> RecordValid(fs[o])) && UniqueFields(fs)
  }

  /** The document as the schema stores it: `isDeleted` defaults to false. */
  function WithDefaults(p: Profile): (r: Profile)
    ensures r.isDeleted == Some(p.isDeleted.GetOr(false))
    ensures r.(isDeleted := p.isDeleted) == p
  {
    p.(isDeleted := Some(p.isDeleted.GetOr(false)))
  }

  /** Why a write of `p` among the records `others` is refused, if it is:
      validators run before the unique indexes are consulted. */
  function WriteRejection(others: map<ObjectId, Profile>, p: Profile): (r: Option<Failure>)
    ensures r == None <==> RecordValid(p) && forall o :: o in others ==> !Clashes(others[o], p)
    ensures !RecordValid(p) ==> r == Some(ValidationError("faculty"))
    ensures RecordValid(p) && r.Some? ==> r.value.DuplicateKey?
  {
    if !RecordValid(p) then Some(ValidationError("faculty"))
    else if exists o :: o in others && Clashes(others[o], p) then Some(DuplicateKey("id, user or email"))
    else None
  }

  /** `Faculty.create([p])` at the fresh identity `o`. */
  function Insert(fs: map<ObjectId, Profile>, o: ObjectId, p: Profile): (r: Result<map<ObjectId, Profile>>)
    requires o !in fs
    ensures r.Ok? <==> RecordValid(WithDefaults(p)) && forall q :: q in fs ==> !Clashes(fs[q], WithDefaults(p))
    ensures r.Ok? ==> r.value.Keys == fs.Keys + {o} && r.value[o].isDeleted == Some(p.isDeleted.GetOr(false))
    ensures r.Ok? ==> forall q :: q in fs ==> r.value[q] == fs[q]
    ensures r.Ok? ==> r.value == fs[o := WithDefaults(p)]
    ensures CollectionValid(fs) && r.Ok? ==> CollectionValid(r.value)
  {
    var stored := WithDefaults(p);
    match WriteRejection(fs, stored)
    case Some(f) => Err(f)
    case None => Ok(fs[o := stored])
  }

  /** The `pre('find')` and `pre('findOne')` filter `{isDeleted: {$ne: true}}`. */
  predicate Visible(p: Profile) {
    p.isDeleted != Some(true)
  }

  /** `Faculty.findById(o)`, which runs the `findOne` hook; `isFacultyExists`
      returns exactly this. */
  function FindById(fs: map<ObjectId, Profile>, o: ObjectId): (r: Option<Profile>)
    ensures r.Some? <==> o in fs && fs[o].isDeleted != Some(true)
    ensures r.Some? ==> r.value == fs[o]
  {
    if o in fs && Visible(fs[o]) then Some(fs[o]) else None
  }

  /** `Faculty.find(query)` with the `find` hook: the identities of the
      records that match the query and are not tombstoned. */
  function Find(fs: map<ObjectId, Profile>, query: Profile -> bool): (r: set<ObjectId>)
    ensures r <= fs.Keys
    ensures forall o :: o in r ==> fs[o].isDeleted != Some(true) && query(fs[o])
    ensures forall o :: o in fs && query(fs[o]) && fs[o].isDeleted != Some(true) ==> o in r
  {
    set o | o in fs && query(fs[o]) && Visible(fs[o])
  }

  /** Tombstoning a record hides it from both hooks and changes nothing else
      any query sees. */
  lemma TombstoneHides(fs: map<ObjectId, Profile>, o: ObjectId, query: Profile -> bool)
    requires o in fs
    ensures FindById(fs[o := fs[o].(isDeleted := Some(true))], o) == None
    ensures Find(fs[o := fs[o].(isDeleted := Some(true))], query) == Find(fs, query) - {o}
  {
    var fs' := fs[o := fs[o].(isDeleted := Some(true))];
    assert forall q :: q in Find(fs', query) <==> q in Find(fs, query) - {o};
  }

  /** A tombstoned record still holds its unique values: a new record with
      the same email is refused. */
  lemma TombstoneKeepsUniqueValues(fs: map<ObjectId, Profile>, o: ObjectId, o2: ObjectId, p: Profile)
    requires o in fs && o2 !in fs
    requires fs[o].isDeleted == Some(true) && fs[o].email == p.email
    ensures Insert(fs, o2, p).Err?
    ensures FindById(fs, o) == None
  {
    assert Clashes(fs[o], WithDefaults(p));
  }

  /** A record missing a required path is refused whatever else it holds. */
  lemma MissingRequiredFieldRejected(fs: map<ObjectId, Profile>, o: ObjectId, p: Profile)
    requires o !in fs
    requires !HasRequiredFields(p)
    ensures Insert(fs, o, p) == Err(ValidationError("faculty"))
  {
    assert !RecordValid(WithDefaults(p));
  }

  /** Setting the tombstone keeps the collection valid: no validated or
      unique path changes. */
  lemma TombstonePreservesValidity(fs: map<ObjectId, Profile>, o: ObjectId)
    requires CollectionValid(fs) && o in fs
    ensures CollectionValid(fs[o := fs[o].(isDeleted := Some(true))])
  {
    var fs' := fs[o := fs[o].(isDeleted := Some(true))];
    forall a, b | a in fs' && b in fs' && a != b
      ensures !Clashes(fs'[a], fs'[b])
    {
      assert !Clashes(fs[a], fs[b]);
    }
  }

  /** Replacing one record by a document the validators and the other
      records' unique values accept keeps the collection valid. */
  lemma ReplacePreservesValidity(fs: map<ObjectId, Profile>, o: ObjectId, p: Profile)
    requires CollectionValid(fs) && o in fs
    requires WriteRejection(fs - {o}, p) == None
    ensures CollectionValid(fs[o := p])
  {
    var fs' := fs[o := p];
    forall a, b | a in fs' && b in fs' && a != b
      ensures !Clashes(fs'[a], fs'[b])
    {
      if a == o {
        assert b in fs - {o};
      } else if b == o {
        assert a in fs - {o};
      } else {
        assert !Clashes(fs[a], fs[b]);
      }
    }
  }
}

=== FILE: faculty_service.dfy ===
/** The faculty services: the single-record lookup, the soft-delete cascade
    onto the linked account, and the partial update whose `name` object is
    flattened into dotted paths. */
module FacultyService {
  import opened Common
  import opened Records
  import opened FacultyModel
  import opened Store
  import AuthService

  const NOT_EXISTS := "Faculty does not exists"

  // ---------------------------------------------------------------------
  // Lookup

  /** `getSingleFacultyFromDB`: `isFacultyExists` and `findById` both go
      through the `findOne` hook, so a tombstoned record is reported absent. */
  function GetSingleFacultyFromDB(fs: map<ObjectId, Profile>, id: ObjectId): (r: Result<Profile>)
    ensures r.Ok? <==> id in fs && fs[id].isDeleted != Some(true)
    ensures r.Ok? ==> r.value == fs[id]
    ensures r.Err? ==> r == Err(AppError(NOT_FOUND, NOT_EXISTS))
  {
    if FindById(fs, id).None? then Err(AppError(NOT_FOUND, NOT_EXISTS))
    else
      var result := FindById(fs, id);
      Ok(result.value)
  }

  // ---------------------------------------------------------------------
  // Soft-delete cascade

  /** The faculty record `id` with its tombstone set. */
  function Tombstoned(fs: map<ObjectId, Profile>, id: ObjectId): (r: map<ObjectId, Profile>)
    requires id in fs
    ensures r.Keys == fs.Keys && r[id].isDeleted == Some(true)
    ensures r[id].(isDeleted := fs[id].isDeleted) == fs[id]
    ensures forall o :: o in fs && o != id ==> r[o] == fs[o]
  {
    fs[id := fs[id].(isDeleted := Some(true))]
  }

  /** What the two writes of the delete transaction end in, as a function of
      the collections before them: the failure the first failing write
      raises, or none when both tombstones are set. */
  function DeleteOutcome(fs: map<ObjectId, Profile>, users: map<string, User>, id: ObjectId,
                         facultyWrite: Fault, userWrite: Fault): (f: Option<Failure>)
    requires id in fs
    ensures f.None? <==>
      && facultyWrite == NoFault && userWrite == NoFault
      && fs[id].user.Some? && HasAccountWithOid(users, fs[id].user.value)
    ensures facultyWrite.Throws? ==> f == Some(External(facultyWrite.message))
    ensures facultyWrite == NothingWritten ==> f == Some(AppError(BAD_REQUEST, "Failed to delete faculty"))
    ensures facultyWrite == NoFault && userWrite.Throws? ==> f == Some(External(userWrite.message))
    ensures facultyWrite == NoFault && !userWrite.Throws? && f.Some? ==>
      f == Some(AppError(BAD_REQUEST, "Failed to delete user"))
  {
    match facultyWrite
    case Throws(m) => Some(External(m))
    case NothingWritten => Some(AppError(BAD_REQUEST, "Failed to delete faculty"))
    case NoFault =>
      match userWrite
      case Throws(m) => Some(External(m))
      case NothingWritten => Some(AppError(BAD_REQUEST, "Failed to delete user"))
      case NoFault =>
        if fs[id].user.Some? && HasAccountWithOid(users, fs[id].user.value) then None
        else Some(AppError(BAD_REQUEST, "Failed to delete user"))
  }

  /** The two writes of the delete transaction, without the rollback. */
  method DeleteInTransaction(db: Db, id: ObjectId, facultyWrite: Fault, userWrite: Fault) returns (r: Result<Profile>)
    requires db.Valid() && id in db.faculties
    modifies db`faculties, db`users
    ensures db.Valid()
    ensures r.Ok? <==>
      && facultyWrite == NoFault && userWrite == NoFault
      && old(db.faculties)[id].user.Some?
      && HasAccountWithOid(old(db.users), old(db.faculties)[id].user.value)
    ensures r.Err? ==> Some(r.failure) == DeleteOutcome(old(db.faculties), old(db.users), id, facultyWrite, userWrite)
    ensures facultyWrite.Throws? ==> r == Err(External(facultyWrite.message))
    ensures facultyWrite == NoFault && userWrite.Throws? ==> r == Err(External(userWrite.message))
    ensures facultyWrite == NothingWritten ==> r == Err(AppError(BAD_REQUEST, "Failed to delete faculty"))
    ensures facultyWrite == NoFault && userWrite != NoFault && !userWrite.Throws? ==>
      r == Err(AppError(BAD_REQUEST, "Failed to delete user"))
    ensures facultyWrite == NoFault && userWrite == NoFault && !r.Ok? ==>
      r == Err(AppError(BAD_REQUEST, "Failed to delete user"))
    ensures r.Ok? ==>
      && db.faculties == Tombstoned(old(db.faculties), id)
      && db.users == UpdateByOid(old(db.users), old(db.faculties)[id].user.value, MarkDeleted)
      && r.value == db.faculties[id]
  {
    // the faculty tombstone write
    var deletedFaculty: Option<Profile>;
    match facultyWrite {
      case Throws(m) =>
        return Err(External(m));
      case NothingWritten =>
        deletedFaculty := None;
      case NoFault =>
        TombstonePreservesValidity(db.faculties, id);
        db.faculties := Tombstoned(db.faculties, id);
        deletedFaculty := Some(db.faculties[id]);
    }
    if deletedFaculty.None? {
      return Err(AppError(BAD_REQUEST, "Failed to delete faculty"));
    }
    var userId := deletedFaculty.value.user;
    // the account tombstone write
    var deletedUser: Option<User>;
    match userWrite {
      case Throws(m) =>
        return Err(External(m));
      case NothingWritten =>
        deletedUser := None;
      case NoFault =>
        if userId.Some? && HasAccountWithOid(db.users, userId.value) {
          var k :| k in db.users && db.users[k].oid == userId.value;
          db.users := UpdateByOid(db.users, userId.value, MarkDeleted);
          deletedUser := Some(db.users[k]);
        } else {
          deletedUser := None;
        }
    }
    if deletedUser.None? {
      return Err(AppError(BAD_REQUEST, "Failed to delete user"));
    }
    r := Ok(deletedFaculty.value);
  }

  /** `deleteSingleFacultyFromDB`: the existence check runs before the
      transaction; inside it both tombstones are set and committed
      together, or the transaction is aborted and neither stays set. */
  method DeleteSingleFacultyFromDB(db: Db, id: ObjectId, facultyWrite: Fault, userWrite: Fault)
    returns (r: Result<Profile>)
    requires db.Valid()
    modifies db`faculties, db`users
    ensures db.Valid()
    ensures FindById(old(db.faculties), id).None? ==> r == Err(AppError(NOT_FOUND, NOT_EXISTS))
    ensures r.Err? ==> db.faculties == old(db.faculties) && db.users == old(db.users)
    ensures r.Ok? <==>
      && FindById(old(db.faculties), id).Some?
      && facultyWrite == NoFault && userWrite == NoFault
      && old(db.faculties)[id].user.Some?
      && HasAccountWithOid(old(db.users), old(db.faculties)[id].user.value)
    ensures FindById(old(db.faculties), id).Some? && r.Err? ==>
      id in old(db.faculties)
      && r.failure == Aborted(DeleteOutcome(old(db.faculties), old(db.users), id, facultyWrite, userWrite).value)
    ensures FindById(old(db.faculties), id).Some? && facultyWrite == NothingWritten ==>
      r == Err(Aborted(AppError(BAD_REQUEST, "Failed to delete faculty")))
    ensures r.Ok? ==>
      && db.faculties == Tombstoned(old(db.faculties), id)
      && db.users == UpdateByOid(old(db.users), old(db.faculties)[id].user.value, MarkDeleted)
      && r.value == db.faculties[id]
  {
    if FindById(db.faculties, id).None? {
      return Err(AppError(NOT_FOUND, NOT_EXISTS));
    }
    var savedFaculties, savedUsers := db.faculties, db.users;
    r := DeleteInTransaction(db, id, facultyWrite, userWrite);
    if r.Err? {
      // the abort: both collections back to their snapshot
      db.faculties, db.users := savedFaculties, savedUsers;
      r := Err(Aborted(r.failure));
    }
  }

  /** After the cascade neither record is visible as live: the faculty
      lookup reports it absent and every account flow refuses the linked
      account as deleted. */
  lemma CascadeHidesBoth(fs: map<ObjectId, Profile>, users: map<string, User>, id: ObjectId, k: string,
                         password: string, now: nat)
    requires id in fs && fs[id].user.Some?
    requires k in users && users[k].oid == fs[id].user.value
    ensures GetSingleFacultyFromDB(Tombstoned(fs, id), id) == Err(AppError(NOT_FOUND, NOT_EXISTS))
    ensures FindById(Tombstoned(fs, id), id) == None
    ensures var users' := UpdateByOid(users, fs[id].user.value, MarkDeleted);
      && users'[k].isDeleted
      && AuthService.LoginUser(users', AuthService.LoginPayload(k, password), now)
         == Err(AppError(FORBIDDEN, AuthService.DELETED))
  {
  }

  // ---------------------------------------------------------------------
  // Partial update

  /** A value in an update payload: a string, or a nested object of strings. */
  datatype Value = Text(text: string) | Fields(entries: map<string, string>)

  const NAME := "name"

  function NamePath(k: string): string {
    "name." + k
  }

  /** The sub-fields of the payload's `name` object; none when it is absent. */
  function NameEntries(payload: map<string, Value>): map<string, string> {
    if NAME in payload && payload[NAME].Fields? then payload[NAME].entries else map[]
  }

  function NamePaths(entries: map<string, string>): set<string> {
    set k | k in entries :: NamePath(k)
  }

  lemma NamePathSuffix(k: string)
    ensures NamePath(k)[5..] == k && |NamePath(k)| == |k| + 5 && NamePath(k) != NAME
  {
    assert |NamePath(k)| == |k| + 5;
  }

  /** `base` with each sub-field `k` of `entries` set under the path
      `name.k`, overriding a field of that literal name. */
  function Overlay(base: map<string, Value>, entries: map<string, string>): (doc: map<string, Value>)
    ensures doc.Keys == base.Keys + NamePaths(entries)
    ensures forall k :: k in entries ==> doc[NamePath(k)] == Text(entries[k])
    ensures forall key :: key in base && key !in NamePaths(entries) ==> doc[key] == base[key]
  {
    var paths := NamePaths(entries);
    forall key | key in paths
      ensures key[5..] in entries
    {
      var k :| k in entries && key == NamePath(k);
      NamePathSuffix(k);
    }
    forall k | k in entries
      ensures NamePath(k) in paths && NamePath(k)[5..] == k
    {
      NamePathSuffix(k);
    }
    map key | key in base.Keys + paths :: if key in paths then Text(entries[key[5..]]) else base[key]
  }

  /** Adding one more sub-field to the overlay is one more assignment. */
  lemma {:induction false} OverlayStep(base: map<string, Value>, entries: map<string, string>, k: string, v: string)
    ensures Overlay(base, entries[k := v]) == Overlay(base, entries)[NamePath(k) := Text(v)]
  {
    var e' := entries[k := v];
    assert NamePaths(e') == NamePaths(entries) + {NamePath(k)} by {
      forall key | key in NamePaths(e')
        ensures key in NamePaths(entries) + {NamePath(k)}
      {
        var j :| j in e' && key == NamePath(j);
        if j != k { assert j in entries; }
      }
    }
    var lhs, rhs := Overlay(base, e'), Overlay(base, entries)[NamePath(k) := Text(v)];
    forall key | key in lhs
      ensures key in rhs && lhs[key] == rhs[key]
    {
      if key in NamePaths(e') && key != NamePath(k) {
        var j :| j in e' && key == NamePath(j);
        assert j != k && j in entries;
      }
    }
  }

  /** The update document: every field but `name` as given, then each
      sub-field `k` of `name` under the path `name.k`, which overrides a
      field of that literal name. */
  function Flattened(payload: map<string, Value>): (doc: map<string, Value>)
    ensures doc.Keys == (payload.Keys - {NAME}) + NamePaths(NameEntries(payload))
    ensures NAME !in doc
    ensures forall k :: k in NameEntries(payload) ==> doc[NamePath(k)] == Text(NameEntries(payload)[k])
    ensures forall key :: key in payload && key != NAME && key !in NamePaths(NameEntries(payload)) ==>
      doc[key] == payload[key]
  {
    forall key | key in NamePaths(NameEntries(payload))
      ensures key != NAME
    {
      var k :| k in NameEntries(payload) && key == NamePath(k);
      NamePathSuffix(k);
    }
    Overlay(payload - {NAME}, NameEntries(payload))
  }

  /** An absent or empty `name` contributes nothing: the document is the rest
      of the payload, so stored name sub-fields stay as they are. */
  lemma EmptyNameAddsNothing(payload: map<string, Value>)
    requires NameEntries(payload) == map[]
    ensures Flattened(payload) == payload - {NAME}
  {
    var doc := Flattened(payload);
    assert NamePaths(NameEntries(payload)) == {};
    assert doc.Keys == (payload - {NAME}).Keys;
  }

  lemma OverlayNothing(base: map<string, Value>)
    ensures Overlay(base, map[]) == base
  {
    assert NamePaths(map[]) == {};
  }

  lemma ShrinkPending(entries: map<string, string>, pending: set<string>, k: string)
    requires k in pending && pending <= entries.Keys
    ensures entries - (pending - {k}) == (entries - pending)[k := entries[k]]
  {
  }

  /** The loop of `updateSingleFacultyIntoDB` that builds the update document. */
  method FlattenUpdate(payload: map<string, Value>) returns (doc: map<string, Value>)
    ensures doc == Flattened(payload)
  {
    var name := if NAME in payload then Some(payload[NAME]) else None;
    var rest := payload - {NAME};
    doc := rest;
    OverlayNothing(rest);
    if name.Some? && name.value.Fields? && |name.value.entries| > 0 {
      var entries := name.value.entries;
      var pending := entries.Keys;
      assert entries - pending == map[];
      while pending != {}
        invariant pending <= entries.Keys
        invariant doc == Overlay(rest, entries - pending)
        decreases pending
      {
        var k :| k in pending;
        ShrinkPending(entries, pending, k);
        OverlayStep(rest, entries - pending, k, entries[k]);
        doc := doc[NamePath(k) := Text(entries[k])];
        pending := pending - {k};
      }
      assert entries - pending == entries;
    }
  }

  /** The string paths of the faculty schema an update can set. */
  const TEXT_PATHS: set<string> := {
    "id", "designation", "name.firstName", "name.middleName", "name.lastName", "gender",
    "dateOfBirth", "email", "contactNo", "emergencyContactNo", "bloodGroup", "presentAddress",
    "permanentAddress", "profileImg"}

  /** The value a record holds at a string path. */
  function TextAt(p: Profile, path: string): Option<string> {
    match path
    case "id" => p.id
    case "designation" => p.designation
    case "name.firstName" => if p.name.Some? then p.name.value.firstName else None
    case "name.middleName" => if p.name.Some? then p.name.value.middleName else None
    case "name.lastName" => if p.name.Some? then p.name.value.lastName else None
    case "gender" => p.gender
    case "dateOfBirth" => p.dateOfBirth
    case "email" => p.email
    case "contactNo" => p.contactNo
    case "emergencyContactNo" => p.emergencyContactNo
    case "bloodGroup" => p.bloodGroup
    case "presentAddress" => p.presentAddress
    case "permanentAddress" => p.permanentAddress
    case "profileImg" => p.profileImg
    case _ => None
  }

  /** The new value of one string path: the document's when it sets the path,
      the record's otherwise; a nested object there cannot be cast. */
  function SetText(doc: map<string, Value>, path: string, current: Option<string>): (r: Result<Option<string>>)
    ensures path !in doc ==> r == Ok(current)
    ensures path in doc ==> r == (if doc[path].Text? then Ok(Some(doc[path].text)) else Err(CastError(path)))
  {
    if path !in doc then Ok(current)
    else match doc[path]
      case Text(t) => Ok(Some(t))
      case Fields(_) => Err(CastError(path))
  }

  /** `$set` of the update document on a record, under the schema's strict
      mode: paths the schema does not have are dropped. */
  function ApplyUpdate(p: Profile, doc: map<string, Value>): (r: Result<Profile>)
    ensures r.Ok? <==> forall path :: path in TEXT_PATHS && path in doc ==> doc[path].Text?
    ensures r.Ok? ==> forall path :: path in TEXT_PATHS ==>
      TextAt(r.value, path) == (if path in doc then Some(doc[path].text) else TextAt(p, path))
    ensures r.Ok? ==>
      && r.value.user == p.user && r.value.admissionSemester == p.admissionSemester
      && r.value.academicDepartment == p.academicDepartment && r.value.academicFaculty == p.academicFaculty
      && r.value.isDeleted == p.isDeleted
  {
    var id :- SetText(doc, "id", p.id);
    var designation :- SetText(doc, "designation", p.designation);
    var name := p.name.GetOr(UserName(None, None, None));
    var firstName :- SetText(doc, "name.firstName", name.firstName);
    var middleName :- SetText(doc, "name.middleName", name.middleName);
    var lastName :- SetText(doc, "name.lastName", name.lastName);
    var gender :- SetText(doc, "gender", p.gender);
    var dateOfBirth :- SetText(doc, "dateOfBirth", p.dateOfBirth);
    var email :- SetText(doc, "email", p.email);
    var contactNo :- SetText(doc, "contactNo", p.contactNo);
    var emergencyContactNo :- SetText(doc, "emergencyContactNo", p.emergencyContactNo);
    var bloodGroup :- SetText(doc, "bloodGroup", p.bloodGroup);
    var presentAddress :- SetText(doc, "presentAddress", p.presentAddress);
    var permanentAddress :- SetText(doc, "permanentAddress", p.permanentAddress);
    var profileImg :- SetText(doc, "profileImg", p.profileImg);
    var touchesName := "name.firstName" in doc || "name.middleName" in doc || "name.lastName" in doc;
    Ok(p.(id := id, designation := designation,
          name := if touchesName then Some(UserName(firstName, middleName, lastName)) else p.name,
          gender := gender, dateOfBirth := dateOfBirth, email := email, contactNo := contactNo,
          emergencyContactNo := emergencyContactNo, bloodGroup := bloodGroup,
          presentAddress := presentAddress, permanentAddress := permanentAddress, profileImg := profileImg))
  }

  /** `updateSingleFacultyIntoDB`: a missing or tombstoned record is reported
      with the bad-request status; otherwise the flattened document is
      applied and the update validators and unique indexes decide. */
  method UpdateSingleFacultyIntoDB(db: Db, id: ObjectId, payload: map<string, Value>) returns (r: Result<Profile>)
    requires db.Valid()
    modifies db`faculties
    ensures db.Valid()
    ensures FindById(old(db.faculties), id).None? ==> r == Err(AppError(BAD_REQUEST, "Faculty do not found"))
    ensures r.Err? ==> db.faculties == old(db.faculties)
    ensures r.Ok? <==>
      && FindById(old(db.faculties), id).Some?
      && ApplyUpdate(old(db.faculties)[id], Flattened(payload)).Ok?
      && WriteRejection(old(db.faculties) - {id}, ApplyUpdate(old(db.faculties)[id], Flattened(payload)).value) == None
    ensures r.Ok? ==>
      && Ok(r.value) == ApplyUpdate(old(db.faculties)[id], Flattened(payload))
      && db.faculties == old(db.faculties)[id := r.value]
  {
    if FindById(db.faculties, id).None? {
      return Err(AppError(BAD_REQUEST, "Faculty do not found"));
    }
    var doc := FlattenUpdate(payload);
    var updated :- ApplyUpdate(db.faculties[id], doc);
    var rejection := WriteRejection(db.faculties - {id}, updated);
    if rejection.Some? {
      return Err(rejection.value);
    }
    ReplacePreservesValidity(db.faculties, id, updated);
    db.faculties := db.faculties[id := updated];
    r := Ok(updated);
  }

  /** An update that only renames keeps every other name sub-field: a payload
      whose `name` sets `firstName` alone changes no other string path. */
  lemma FirstNameUpdateKeepsOtherPaths(p: Profile, first: string, path: string)
    requires path in TEXT_PATHS && path != "name.firstName"
    ensures var doc := Flattened(map[NAME := Fields(map["firstName" := first])]);
      && ApplyUpdate(p, doc).Ok?
      && TextAt(ApplyUpdate(p, doc).value, "name.firstName") == Some(first)
      && TextAt(ApplyUpdate(p, doc).value, path) == TextAt(p, path)
  {
    var payload := map[NAME := Fields(map["firstName" := first])];
    var doc := Flattened(payload);
    assert NameEntries(payload) == map["firstName" := first];
    assert NamePath("firstName") == "name.firstName";
    assert NamePaths(NameEntries(payload)) == {"name.firstName"};
    assert doc.Keys == {"name.firstName"};
  }
}

=== FILE: records.dfy ===
/** The two kinds of stored record: the shared user account and the
    role profile (student, faculty or admin). */
module Records {
  import opened Common

  /** A document's internal identity (`_id`). */
  type ObjectId = nat

  datatype Role = Student | Faculty | Admin | SuperAdmin

  /** The stored password digest. Hashing is modelled as an injective tag:
      salting and the cost factor are not modelled. */
  datatype Credential = Hashed(plain: string)

  function Hash(plain: string): Credential {
    Hashed(plain)
  }

  /** `isPasswordMatched(plain, stored)`. */
  predicate PasswordMatches(plain: string, stored: Credential) {
    stored == Hash(plain)
  }

  const BLOCKED := "blocked"

  /** Defaults the user schema gives a new account. */
  const DEFAULT_STATUS := "in-progress"
  const DEFAULT_NEEDS_PASSWORD_CHANGE := true

  /** A user account; `id` is the custom (human-readable) identifier. */
  datatype User = User(
    id: string,
    oid: ObjectId,
    password: Credential,
    needsPasswordChange: bool,
    passwordChangedAt: Option<nat>,
    role: Role,
    email: Option<string>,
    status: string,
    isDeleted: bool)

  /** The fields a profile creator fills in before the account is inserted. */
  datatype UserDraft = UserDraft(password: string, role: Role, email: Option<string>)

  /** The account stored for a draft: the password is hashed on save and the
      schema defaults apply. */
  function NewUser(id: string, oid: ObjectId, d: UserDraft): (u: User)
    ensures u.id == id && u.oid == oid && u.role == d.role && u.email == d.email
    ensures PasswordMatches(d.password, u.password)
    ensures !u.isDeleted && u.status != BLOCKED && u.passwordChangedAt == None
  {
    User(id, oid, Hash(d.password), DEFAULT_NEEDS_PASSWORD_CHANGE, None, d.role, d.email,
         DEFAULT_STATUS, false)
  }

  datatype UserName = UserName(
    firstName: Option<string>,
    middleName: Option<string>,
    lastName: Option<string>)

  /** A role profile. Every field is optional because a payload may omit it;
      the faculty schema decides which ones a stored record must have. */
  datatype Profile = Profile(
    id: Option<string>,
    user: Option<ObjectId>,
    designation: Option<string>,
    name: Option<UserName>,
    gender: Option<string>,
    dateOfBirth: Option<string>,
    email: Option<string>,
    contactNo: Option<string>,
    emergencyContactNo: Option<string>,
    bloodGroup: Option<string>,
    presentAddress: Option<string>,
    permanentAddress: Option<string>,
    profileImg: Option<string>,
    admissionSemester: Option<ObjectId>,
    academicDepartment: Option<ObjectId>,
    academicFaculty: Option<ObjectId>,
    isDeleted: Option<bool>)

  /** The three profile collections. */
  datatype ProfileKind = StudentProfile | FacultyProfile | AdminProfile

  function RoleOf(kind: ProfileKind): Role {
    match kind
    case StudentProfile => Student
    case FacultyProfile => Faculty
    case AdminProfile => Admin
  }
}

=== FILE: store.dfy ===
/** The document store the services work on: the users collection keyed by
    custom id, the three profile collections keyed by `_id`, the two lookup
    collections the creators consult, and the allocator of `_id`s. */
module Store {
  import opened Common
  import opened Records
  import FacultyModel

  /** What the database driver does with one write, beyond the schema and
      index checks the model performs itself. */
  datatype Fault = NoFault | NothingWritten | Throws(message: string)

  /** `User.findByIdAndUpdate(oid, ...)`: `update` applied to the account whose
      `_id` is `oid`, every other account as it was. */
  function UpdateByOid(users: map<string, User>, oid: ObjectId, update: User -> User): (r: map<string, User>)
    ensures r.Keys == users.Keys
    ensures forall k :: k in users && users[k].oid != oid ==> r[k] == users[k]
    ensures forall k :: k in users && users[k].oid == oid ==> r[k] == update(users[k])
  {
    map k | k in users :: if users[k].oid == oid then update(users[k]) else users[k]
  }

  /** The `{isDeleted: true}` update on an account. */
  function MarkDeleted(u: User): User {
    u.(isDeleted := true)
  }

  /** Some account has the internal identity `oid`. */
  predicate HasAccountWithOid(users: map<string, User>, oid: ObjectId) {
    exists k :: k in users && users[k].oid == oid
  }

  /** Every account is filed under its own custom id. */
  predicate KeyedById(users: map<string, User>) {
    forall k :: k in users ==> users[k].id == k
  }

  /** The document a profile collection stores for `p`: the faculty schema
      applies its default; the other two schemas are not part of this model. */
  function Stored(kind: ProfileKind, p: Profile): Profile {
    if kind == FacultyProfile then FacultyModel.WithDefaults(p) else p
  }

  class Db {
    var users: map<string, User>
    var students: map<ObjectId, Profile>
    var faculties: map<ObjectId, Profile>
    var admins: map<ObjectId, Profile>
    var academicSemesters: set<ObjectId>
    var academicDepartments: set<ObjectId>
    var nextOid: ObjectId

    /** Every account is filed under its own custom id, `_id`s are distinct and
        below the allocator, and the faculty collection satisfies its schema
        and unique indexes. */
    ghost predicate Valid()
      reads this
    {
      && KeyedById(users)
      && (forall k :: k in users ==> users[k].oid < nextOid)
      && (forall k1, k2 :: k1 in users && k2 in users && k1 != k2 ==> users[k1].oid != users[k2].oid)
      && (forall o :: o in students ==> o < nextOid)
      && (forall o :: o in faculties ==> o < nextOid)
      && (forall o :: o in admins ==> o < nextOid)
      && FacultyModel.CollectionValid(faculties)
    }

    constructor (semesters: set<ObjectId>, departments: set<ObjectId>)
      ensures Valid()
      ensures users == map[] && students == map[] && faculties == map[] && admins == map[]
      ensures academicSemesters == semesters && academicDepartments == departments
    {
      users, students, faculties, admins := map[], map[], map[], map[];
      academicSemesters, academicDepartments := semesters, departments;
      nextOid := 0;
    }

    function ProfilesOf(kind: ProfileKind): map<ObjectId, Profile>
      reads this
    {
      match kind
      case StudentProfile => students
      case FacultyProfile => faculties
      case AdminProfile => admins
    }

    /** A fresh `_id`. */
    method NewObjectId() returns (o: ObjectId)
      modifies this`nextOid
      ensures o == old(nextOid) && nextOid == o + 1
    {
      o := nextOid;
      nextOid := nextOid + 1;
    }

    /** `User.create([draft])` under the custom id `id`: the unique index on
        `id` refuses a second account with the same id. */
    method CreateUser(id: string, draft: UserDraft, fault: Fault) returns (r: Result<seq<User>>)
      requires Valid()
      modifies this`users, this`nextOid
      ensures Valid() && nextOid >= old(nextOid)
      ensures id in old(users) ==> r == Err(DuplicateKey("id"))
      ensures id !in old(users) && fault.Throws? ==> r == Err(External(fault.message))
      ensures id !in old(users) && fault == NothingWritten ==> r == Ok([])
      ensures id !in old(users) && fault == NoFault ==> r.Ok? && r.value != []
      ensures r.Ok? && r.value != [] ==>
        && id !in old(users) && nextOid == old(nextOid) + 1
        && r.value == [NewUser(id, old(nextOid), draft)]
        && users == old(users)[id := r.value[0]]
      ensures !(r.Ok? && r.value != []) ==> users == old(users)
    {
      if id in users {
        return Err(DuplicateKey("id"));
      }
      match fault
      case Throws(m) =>
        r := Err(External(m));
      case NothingWritten =>
        r := Ok([]);
      case NoFault =>
        var o := NewObjectId();
        var u := NewUser(id, o, draft);
        users := users[id := u];
        r := Ok([u]);
    }

    /** `Student.create([p])`, `Faculty.create([p])` or `Admin.create([p])`.
        Only the faculty schema is part of this model. */
    method CreateProfile(kind: ProfileKind, p: Profile, fault: Fault) returns (r: Result<seq<Profile>>)
      requires Valid()
      modifies this`students, this`faculties, this`admins, this`nextOid
      ensures Valid() && nextOid >= old(nextOid)
      ensures kind == FacultyProfile && FacultyModel.WriteRejection(old(faculties), Stored(kind, p)).Some? ==>
        r == Err(FacultyModel.WriteRejection(old(faculties), Stored(kind, p)).value)
      ensures (kind == FacultyProfile ==> FacultyModel.WriteRejection(old(faculties), Stored(kind, p)).None?) ==>
        && (fault.Throws? ==> r == Err(External(fault.message)))
        && (fault == NothingWritten ==> r == Ok([]))
      ensures r.Ok? && r.value != [] <==>
        && (kind == FacultyProfile ==> FacultyModel.WriteRejection(old(faculties), Stored(kind, p)).None?)
        && fault == NoFault
      ensures r.Ok? && r.value != [] ==>
        && r.value == [Stored(kind, p)]
        && nextOid == old(nextOid) + 1
        && old(nextOid) !in old(ProfilesOf(kind))
        && ProfilesOf(kind) == old(ProfilesOf(kind))[old(nextOid) := r.value[0]]
        && forall k :: k != kind ==> ProfilesOf(k) == old(ProfilesOf(k))
      ensures !(r.Ok? && r.value != []) ==>
        students == old(students) && faculties == old(faculties) && admins == old(admins)
    {
      var stored := Stored(kind, p);
      if kind == FacultyProfile {
        var rejection := FacultyModel.WriteRejection(faculties, stored);
        if rejection.Some? {
          return Err(rejection.value);
        }
      }
      match fault
      case Throws(m) =>
        r := Err(External(m));
      case NothingWritten =>
        r := Ok([]);
      case NoFault =>
        var o := NewObjectId();
        match kind {
          case StudentProfile =>
            students := students[o := stored];
          case FacultyProfile =>
            var inserted := FacultyModel.Insert(faculties, o, p);
            faculties := inserted.value;
          case AdminProfile =>
            admins := admins[o := stored];
        }
        r := Ok([stored]);
    }
  }
}

=== FILE: tokens.dfy ===
/** Signed tokens, abstracted to what the services rely on: who signed the
    token (which secret and expiry pair), the claims it carries, and when it
    was issued (the `iat` claim of section 4.1.6 of RFC 7519). */
module Tokens {
  import opened Common
  import opened Records

  /** The payload the services sign: `{userId, role}`. */
  datatype Claims = Claims(userId: string, role: Role)

  /** Which configured secret/expiry pair signed a token. `OtherKey` stands
      for any token the service did not sign (forged or altered). */
  datatype SigningKey = AccessKey | RefreshKey | OtherKey

  datatype Jwt = Jwt(claims: Claims, key: SigningKey, iat: nat)

  /** What verification yields: the claims and the issued-at time. */
  datatype Decoded = Decoded(claims: Claims, iat: nat)

  function ClaimsOf(u: User): Claims {
    Claims(u.id, u.role)
  }

  /** `createToken(payload, secret, expiresIn)`, issued at `now`. */
  function CreateToken(c: Claims, key: SigningKey, now: nat): Jwt {
    Jwt(c, key, now)
  }

  /** `jwt.verify(token, secret)`. Expiry is not modelled. */
  function Verify(t: Jwt, key: SigningKey): Option<Decoded> {
    if t.key == key then Some(Decoded(t.claims, t.iat)) else None
  }

  /** `isJWTIssuedBeforePasswordChanged(passwordChangedAt, iat)`. */
  predicate IssuedBeforePasswordChange(passwordChangedAt: nat, iat: nat) {
    iat < passwordChangedAt
  }
}

=== FILE: user_service.dfy ===
/** The user services: provisioning an account together with its student,
    faculty or admin profile in one transaction, the caller's own profile
    lookup, and the account status change. */
module UserService {
  import opened Common
  import opened Records
  import opened FacultyModel
  import opened Store
  import AuthService
  import Tokens

  // ---------------------------------------------------------------------
  // Provisioning

  /** The account password: the one given, or the configured default when
      none (the empty string) is given. */
  function AccountPassword(password: string, defaultPass: string): (r: string)
    ensures password != "" ==> r == password
    ensures password == "" ==> r == defaultPass
  {
    if password != "" then password else defaultPass
  }

  /** The name the uploaded image is stored under: the new custom id followed
      by the first name, which reads `undefined` when the payload has none. */
  function ImageName(id: string, p: Profile): (r: string)
    ensures |r| >= |id| && r[..|id|] == id
  {
    id + (if p.name.Some? && p.name.value.firstName.Some? then p.name.value.firstName.value else "undefined")
  }

  /** The payload after the optional image upload: `upload(name, path)` is
      the image host, answering with the secure URL or failing. */
  function WithImage(p: Profile, id: string, file: Option<string>, upload: (string, string) -> Result<string>)
    : (r: Result<Profile>)
    ensures file.None? ==> r == Ok(p)
    ensures file.Some? ==> (r.Ok? <==> upload(ImageName(id, p), file.value).Ok?)
    ensures file.Some? && r.Err? ==> r.failure == upload(ImageName(id, p), file.value).failure
    ensures r.Ok? ==> r.value.(profileImg := p.profileImg) == p
    ensures r.Ok? && file.Some? ==> r.value.profileImg == Some(upload(ImageName(id, p), file.value).value)
  {
    if file.None? then Ok(p)
    else
      var url :- upload(ImageName(id, p), file.value);
      Ok(p.(profileImg := Some(url)))
  }

  /** The profile linked to its account: the account's custom id and `_id`. */
  function Linked(p: Profile, u: User): (r: Profile)
    ensures r.id == Some(u.id) && r.user == Some(u.oid)
    ensures r.(id := p.id, user := p.user) == p
  {
    p.(id := Some(u.id), user := Some(u.oid))
  }

  function KindName(kind: ProfileKind): string {
    match kind
    case StudentProfile => "student"
    case FacultyProfile => "faculty"
    case AdminProfile => "admin"
  }

  /** The account a provisioning call stores. */
  function DraftFor(kind: ProfileKind, password: string, p: Profile): (d: UserDraft)
    ensures d.password == password && d.role == RoleOf(kind) && d.email == p.email
  {
    UserDraft(password, RoleOf(kind), p.email)
  }

  /** What the steps inside the provisioning transaction end in, as a
      function of the store before them: the failure each step raises, in
      the order the steps run, or none when the account and the profile are
      both written. `oid` is the `_id` the account insert allocates. */
  function ProvisionOutcome(users: map<string, User>, faculties: map<ObjectId, Profile>, oid: ObjectId,
                            kind: ProfileKind, password: string, p: Profile, newId: Result<string>,
                            file: Option<string>, upload: (string, string) -> Result<string>,
                            userWrite: Fault, profileWrite: Fault): (f: Option<Failure>)
    ensures f.None? <==>
      && newId.Ok? && WithImage(p, newId.value, file, upload).Ok? && newId.value !in users
      && userWrite == NoFault && profileWrite == NoFault
      && (kind == FacultyProfile ==>
            var u := NewUser(newId.value, oid, DraftFor(kind, password, p));
            WriteRejection(faculties, Stored(kind, Linked(WithImage(p, newId.value, file, upload).value, u))).None?)
    ensures newId.Err? ==> f == Some(newId.failure)
    ensures newId.Ok? && file.Some? && upload(ImageName(newId.value, p), file.value).Err? ==>
      f == Some(upload(ImageName(newId.value, p), file.value).failure)
    ensures newId.Ok? && WithImage(p, newId.value, file, upload).Ok? && newId.value in users ==>
      f == Some(DuplicateKey("id"))
    ensures newId.Ok? && WithImage(p, newId.value, file, upload).Ok? && newId.value !in users
            && userWrite.Throws? ==>
      f == Some(External(userWrite.message))
    ensures newId.Ok? && WithImage(p, newId.value, file, upload).Ok? && newId.value !in users
            && userWrite == NothingWritten ==>
      f == Some(AppError(BAD_REQUEST, "Failed to create user"))
    ensures newId.Ok? && WithImage(p, newId.value, file, upload).Ok? && newId.value !in users
            && userWrite == NoFault && kind == FacultyProfile ==>
      var u := NewUser(newId.value, oid, DraftFor(kind, password, p));
      var rejection := WriteRejection(faculties, Stored(kind, Linked(WithImage(p, newId.value, file, upload).value, u)));
      rejection.Some? ==> f == rejection
    ensures newId.Ok? && WithImage(p, newId.value, file, upload).Ok? && newId.value !in users
            && userWrite == NoFault && profileWrite.Throws?
            && (kind == FacultyProfile ==>
                  var u := NewUser(newId.value, oid, DraftFor(kind, password, p));
                  WriteRejection(faculties, Stored(kind, Linked(WithImage(p, newId.value, file, upload).value, u))).None?) ==>
      f == Some(External(profileWrite.message))
    ensures newId.Ok? && WithImage(p, newId.value, file, upload).Ok? && newId.value !in users
            && userWrite == NoFault && profileWrite == NothingWritten
            && (kind == FacultyProfile ==>
                  var u := NewUser(newId.value, oid, DraftFor(kind, password, p));
                  WriteRejection(faculties, Stored(kind, Linked(WithImage(p, newId.value, file, upload).value, u))).None?) ==>
      f == Some(AppError(BAD_REQUEST, "Failed to create " + KindName(kind)))
  {
    if newId.Err? then Some(newId.failure)
    else match WithImage(p, newId.value, file, upload)
      case Err(e) => Some(e)
      case Ok(doc) =>
        if newId.value in users then Some(DuplicateKey("id"))
        else match userWrite
          case Throws(m) => Some(External(m))
          case NothingWritten => Some(AppError(BAD_REQUEST, "Failed to create user"))
          case NoFault =>
            var stored := Stored(kind, Linked(doc, NewUser(newId.value, oid, DraftFor(kind, password, p))));
            if kind == FacultyProfile && WriteRejection(faculties, stored).Some? then WriteRejection(faculties, stored)
            else match profileWrite
              case Throws(m) => Some(External(m))
              case NothingWritten => Some(AppError(BAD_REQUEST, "Failed to create " + KindName(kind)))
              case NoFault => None
  }

  /** The steps inside the provisioning transaction, without the rollback.
      `newId` is the id generator's answer; `userWrite` and `profileWrite`
      are what the driver does with the two inserts. */
  method ProvisionSteps(db: Db, kind: ProfileKind, password: string, p: Profile, newId: Result<string>,
                        file: Option<string>, upload: (string, string) -> Result<string>,
                        userWrite: Fault, profileWrite: Fault)
    returns (r: Result<seq<Profile>>)
    requires db.Valid()
    modifies db`users, db`students, db`faculties, db`admins, db`nextOid
    ensures db.Valid() && db.nextOid >= old(db.nextOid)
    ensures r.Ok? <==> ProvisionOutcome(old(db.users), old(db.faculties), old(db.nextOid), kind, password, p, newId,
                                        file, upload, userWrite, profileWrite).None?
    ensures r.Err? ==> Some(r.failure) == ProvisionOutcome(old(db.users), old(db.faculties), old(db.nextOid), kind,
                                                           password, p, newId, file, upload, userWrite, profileWrite)
    ensures r.Ok? ==>
      && newId.Ok? && newId.value !in old(db.users) && WithImage(p, newId.value, file, upload).Ok?
      && var u := NewUser(newId.value, old(db.nextOid), DraftFor(kind, password, p));
         && db.users == old(db.users)[newId.value := u]
         && r.value == [Stored(kind, Linked(WithImage(p, newId.value, file, upload).value, u))]
         && old(db.nextOid) + 1 !in old(db.ProfilesOf(kind))
         && db.ProfilesOf(kind) == old(db.ProfilesOf(kind))[old(db.nextOid) + 1 := r.value[0]]
         && forall k :: k != kind ==> db.ProfilesOf(k) == old(db.ProfilesOf(k))
    ensures r.Ok? && kind == FacultyProfile ==>
      forall f :: f in old(db.faculties) ==> !Clashes(old(db.faculties)[f], r.value[0])
  {
    ghost var outcome := ProvisionOutcome(db.users, db.faculties, db.nextOid, kind, password, p, newId,
                                          file, upload, userWrite, profileWrite);
    // the generated custom id
    if newId.Err? {
      return Err(newId.failure);
    }
    var id := newId.value;
    // the optional image upload
    var payload :- WithImage(p, id, file, upload);
    // the account insert
    var newUser :- db.CreateUser(id, DraftFor(kind, password, p), userWrite);
    if |newUser| == 0 {
      return Err(AppError(BAD_REQUEST, "Failed to create user"));
    }
    ghost var usersAfter := db.users;
    // the profile linked to the new account, then the profile insert
    var linked := Linked(payload, newUser[0]);
    var created :- db.CreateProfile(kind, linked, profileWrite);
    if |created| == 0 {
      return Err(AppError(BAD_REQUEST, "Failed to create " + KindName(kind)));
    }
    assert db.users == usersAfter;
    r := Ok(created);
  }

  /** `startTransaction` … `commitTransaction`, or `abortTransaction` and
      `throw new Error(err)`: either the account and its profile are both
      stored, or no collection changes and the failure is reported as an
      aborted transaction. */
  method ProvisionInTransaction(db: Db, kind: ProfileKind, password: string, p: Profile, newId: Result<string>,
                                file: Option<string>, upload: (string, string) -> Result<string>,
                                userWrite: Fault, profileWrite: Fault)
    returns (r: Result<seq<Profile>>)
    requires db.Valid()
    modifies db`users, db`students, db`faculties, db`admins, db`nextOid
    ensures db.Valid()
    ensures r.Err? ==> r.failure.Aborted?
    ensures r.Err? ==>
      && db.users == old(db.users) && db.students == old(db.students)
      && db.faculties == old(db.faculties) && db.admins == old(db.admins)
    ensures newId.Err? ==> r == Err(Aborted(newId.failure))
    ensures newId.Ok? && WithImage(p, newId.value, file, upload).Ok? && newId.value in old(db.users) ==>
      r == Err(Aborted(DuplicateKey("id")))
    ensures r.Ok? ==>
      && newId.Ok? && newId.value !in old(db.users) && WithImage(p, newId.value, file, upload).Ok?
      && var u := NewUser(newId.value, old(db.nextOid), DraftFor(kind, password, p));
         && db.users == old(db.users)[newId.value := u]
         && r.value == [Stored(kind, Linked(WithImage(p, newId.value, file, upload).value, u))]
         && old(db.nextOid) + 1 !in old(db.ProfilesOf(kind))
         && db.ProfilesOf(kind) == old(db.ProfilesOf(kind))[old(db.nextOid) + 1 := r.value[0]]
         && forall k :: k != kind ==> db.ProfilesOf(k) == old(db.ProfilesOf(k))
    ensures r.Ok? && kind == FacultyProfile ==>
      forall f :: f in old(db.faculties) ==> !Clashes(old(db.faculties)[f], r.value[0])
    ensures r.Ok? <==>
      && newId.Ok? && WithImage(p, newId.value, file, upload).Ok? && newId.value !in old(db.users)
      && userWrite == NoFault && profileWrite == NoFault
      && (kind == FacultyProfile ==>
            var u := NewUser(newId.value, old(db.nextOid), DraftFor(kind, password, p));
            WriteRejection(old(db.faculties), Stored(kind, Linked(WithImage(p, newId.value, file, upload).value, u))).None?)
    ensures r.Err? ==> r.failure == Aborted(ProvisionOutcome(old(db.users), old(db.faculties), old(db.nextOid), kind,
                                            password, p, newId, file, upload, userWrite, profileWrite).value)
  {
    var users, students, faculties, admins := db.users, db.students, db.faculties, db.admins;
    r := ProvisionSteps(db, kind, password, p, newId, file, upload, userWrite, profileWrite);
    if r.Err? {
      // the abort: every collection back to its snapshot
      db.users, db.students, db.faculties, db.admins := users, students, faculties, admins;
      r := Err(Aborted(r.failure));
    }
  }

  /** `createStudentIntoDB`: the admission semester must exist before the
      transaction starts. */
  method CreateStudentIntoDB(db: Db, file: Option<string>, password: string, p: Profile, defaultPass: string,
                             newId: Result<string>, upload: (string, string) -> Result<string>,
                             userWrite: Fault, profileWrite: Fault)
    returns (r: Result<seq<Profile>>)
    requires db.Valid()
    modifies db`users, db`students, db`faculties, db`admins, db`nextOid
    ensures db.Valid()
    ensures p.admissionSemester.None? || p.admissionSemester.value !in db.academicSemesters ==>
      r == Err(PlainError("Failed to create user"))
    ensures r.Err? ==>
      && db.users == old(db.users) && db.students == old(db.students)
      && db.faculties == old(db.faculties) && db.admins == old(db.admins)
    ensures r.Ok? ==>
      && newId.Ok? && WithImage(p, newId.value, file, upload).Ok?
      && r.value == [Stored(StudentProfile, Linked(WithImage(p, newId.value, file, upload).value,
                       NewUser(newId.value, old(db.nextOid),
                               DraftFor(StudentProfile, AccountPassword(password, defaultPass), p))))]
    ensures r.Ok? ==>
      && newId.Ok? && newId.value !in old(db.users)
      && db.users == old(db.users)[newId.value := NewUser(newId.value, old(db.nextOid),
                                    UserDraft(AccountPassword(password, defaultPass), Student, p.email))]
      && |r.value| == 1 && r.value[0].id == Some(newId.value) && r.value[0].user == Some(old(db.nextOid))
      && db.students == old(db.students)[old(db.nextOid) + 1 := r.value[0]]
      && db.faculties == old(db.faculties) && db.admins == old(db.admins)
    ensures p.admissionSemester.Some? && p.admissionSemester.value in old(db.academicSemesters) ==>
      (r.Ok? <==> ProvisionOutcome(old(db.users), old(db.faculties), old(db.nextOid), StudentProfile,
                         AccountPassword(password, defaultPass), p, newId, file, upload, userWrite, profileWrite).None?)
    ensures p.admissionSemester.Some? && p.admissionSemester.value in old(db.academicSemesters) && r.Err? ==>
      r.failure == Aborted(ProvisionOutcome(old(db.users), old(db.faculties), old(db.nextOid), StudentProfile,
                         AccountPassword(password, defaultPass), p, newId, file, upload, userWrite, profileWrite).value)
  {
    // the admission semester lookup
    if p.admissionSemester.None? || p.admissionSemester.value !in db.academicSemesters {
      return Err(PlainError("Failed to create user"));
    }
    r := ProvisionInTransaction(db, StudentProfile, AccountPassword(password, defaultPass), p, newId, file, upload,
                                userWrite, profileWrite);
    assert r.Ok? ==> (db.ProfilesOf(FacultyProfile) == old(db.ProfilesOf(FacultyProfile))
                  && db.ProfilesOf(AdminProfile) == old(db.ProfilesOf(AdminProfile)));
  }

  /** `createFacultyIntoDB`: the academic department must exist before the
      transaction starts; the faculty schema and its unique indexes then
      decide the profile insert. */
  method CreateFacultyIntoDB(db: Db, file: Option<string>, password: string, p: Profile, defaultPass: string,
                             newId: Result<string>, upload: (string, string) -> Result<string>,
                             userWrite: Fault, profileWrite: Fault)
    returns (r: Result<seq<Profile>>)
    requires db.Valid()
    modifies db`users, db`students, db`faculties, db`admins, db`nextOid
    ensures db.Valid()
    ensures p.academicDepartment.None? || p.academicDepartment.value !in db.academicDepartments ==>
      r == Err(AppError(BAD_REQUEST, "Academic department not found"))
    ensures r.Err? ==>
      && db.users == old(db.users) && db.students == old(db.students)
      && db.faculties == old(db.faculties) && db.admins == old(db.admins)
    ensures (exists f :: f in old(db.faculties) && old(db.faculties)[f].email == p.email) ==> r.Err?
    ensures r.Ok? ==>
      && newId.Ok? && WithImage(p, newId.value, file, upload).Ok?
      && r.value == [Stored(FacultyProfile, Linked(WithImage(p, newId.value, file, upload).value,
                       NewUser(newId.value, old(db.nextOid),
                               DraftFor(FacultyProfile, AccountPassword(password, defaultPass), p))))]
    ensures r.Ok? ==>
      && newId.Ok? && newId.value !in old(db.users)
      && db.users == old(db.users)[newId.value := NewUser(newId.value, old(db.nextOid),
                                    UserDraft(AccountPassword(password, defaultPass), Faculty, p.email))]
      && |r.value| == 1 && r.value[0].id == Some(newId.value) && r.value[0].user == Some(old(db.nextOid))
      && r.value[0].isDeleted == Some(p.isDeleted.GetOr(false)) && RecordValid(r.value[0])
      && db.faculties == old(db.faculties)[old(db.nextOid) + 1 := r.value[0]]
      && db.students == old(db.students) && db.admins == old(db.admins)
    ensures p.academicDepartment.Some? && p.academicDepartment.value in old(db.academicDepartments) ==>
      (r.Ok? <==> ProvisionOutcome(old(db.users), old(db.faculties), old(db.nextOid), FacultyProfile,
                         AccountPassword(password, defaultPass), p, newId, file, upload, userWrite, profileWrite).None?)
    ensures p.academicDepartment.Some? && p.academicDepartment.value in old(db.academicDepartments) && r.Err? ==>
      r.failure == Aborted(ProvisionOutcome(old(db.users), old(db.faculties), old(db.nextOid), FacultyProfile,
                         AccountPassword(password, defaultPass), p, newId, file, upload, userWrite, profileWrite).value)
  {
    // the academic department lookup
    if p.academicDepartment.None? || p.academicDepartment.value !in db.academicDepartments {
      return Err(AppError(BAD_REQUEST, "Academic department not found"));
    }
    r := ProvisionInTransaction(db, FacultyProfile, AccountPassword(password, defaultPass), p, newId, file, upload,
                                userWrite, profileWrite);
    assert r.Ok? ==> (db.ProfilesOf(StudentProfile) == old(db.ProfilesOf(StudentProfile))
                  && db.ProfilesOf(AdminProfile) == old(db.ProfilesOf(AdminProfile)));
    if r.Ok? {
      assert db.faculties[old(db.nextOid) + 1] == r.value[0];
    }
  }

  /** `createAdminIntoDB`: no lookup precedes the transaction. */
  method CreateAdminIntoDB(db: Db, file: Option<string>, password: string, p: Profile, defaultPass: string,
                           newId: Result<string>, upload: (string, string) -> Result<string>,
                           userWrite: Fault, profileWrite: Fault)
    returns (r: Result<seq<Profile>>)
    requires db.Valid()
    modifies db`users, db`students, db`faculties, db`admins, db`nextOid
    ensures db.Valid()
    ensures r.Err? ==>
      && r.failure.Aborted?
      && db.users == old(db.users) && db.students == old(db.students)
      && db.faculties == old(db.faculties) && db.admins == old(db.admins)
    ensures r.Ok? ==>
      && newId.Ok? && WithImage(p, newId.value, file, upload).Ok?
      && r.value == [Stored(AdminProfile, Linked(WithImage(p, newId.value, file, upload).value,
                       NewUser(newId.value, old(db.nextOid),
                               DraftFor(AdminProfile, AccountPassword(password, defaultPass), p))))]
    ensures r.Ok? ==>
      && newId.Ok? && newId.value !in old(db.users)
      && db.users == old(db.users)[newId.value := NewUser(newId.value, old(db.nextOid),
                                    UserDraft(AccountPassword(password, defaultPass), Admin, p.email))]
      && |r.value| == 1 && r.value[0].id == Some(newId.value) && r.value[0].user == Some(old(db.nextOid))
      && db.admins == old(db.admins)[old(db.nextOid) + 1 := r.value[0]]
      && db.students == old(db.students) && db.faculties == old(db.faculties)
    ensures (r.Ok? <==> ProvisionOutcome(old(db.users), old(db.faculties), old(db.nextOid), AdminProfile,
                         AccountPassword(password, defaultPass), p, newId, file, upload, userWrite, profileWrite).None?)
    ensures r.Err? ==>
      r.failure == Aborted(ProvisionOutcome(old(db.users), old(db.faculties), old(db.nextOid), AdminProfile,
                         AccountPassword(password, defaultPass), p, newId, file, upload, userWrite, profileWrite).value)
  {
    r := ProvisionInTransaction(db, AdminProfile, AccountPassword(password, defaultPass), p, newId, file, upload,
                                userWrite, profileWrite);
    assert r.Ok? ==> (db.ProfilesOf(StudentProfile) == old(db.ProfilesOf(StudentProfile))
                  && db.ProfilesOf(FacultyProfile) == old(db.ProfilesOf(FacultyProfile)));
  }

  /** A freshly provisioned account logs in with the password it was created
      with, and is told to change it. */
  lemma NewAccountLogsIn(users: map<string, User>, id: string, oid: ObjectId, d: UserDraft, now: nat)
    requires id !in users
    ensures var u := NewUser(id, oid, d);
      AuthService.LoginUser(users[id := u], AuthService.LoginPayload(id, d.password), now)
      == Ok(AuthService.LoginResult(Tokens.CreateToken(Tokens.Claims(id, d.role), Tokens.AccessKey, now),
                                    Tokens.CreateToken(Tokens.Claims(id, d.role), Tokens.RefreshKey, now),
                                    true))
  {
  }

  // ---------------------------------------------------------------------
  // The caller's own profile

  /** A profile together with its populated `user` reference. */
  datatype Me = Me(profile: Profile, user: Option<User>)

  /** The first record, in `_id` order from `from` up to `to`, whose custom id
      is `userId`; `hidden` applies the tombstone filter. */
  function FirstWithId(ps: map<ObjectId, Profile>, userId: string, hidden: bool, from: nat, to: nat)
    : (r: Option<ObjectId>)
    decreases to - from
    ensures r.Some? ==>
      && from <= r.value < to && r.value in ps && ps[r.value].id == Some(userId)
      && (hidden ==> Visible(ps[r.value]))
    ensures forall o :: from <= o < to && (r.None? || o < r.value) && o in ps && ps[o].id == Some(userId) ==>
      hidden && !Visible(ps[o])
  {
    if from >= to then None
    else if from in ps && ps[from].id == Some(userId) && (!hidden || Visible(ps[from])) then Some(from)
    else FirstWithId(ps, userId, hidden, from + 1, to)
  }

  /** `populate('user')`: the account whose `_id` the profile references. */
  function AccountWithOid(users: map<string, User>, oid: ObjectId): (r: Option<User>)
    requires forall k1, k2 :: k1 in users && k2 in users && k1 != k2 ==> users[k1].oid != users[k2].oid
    ensures r.Some? <==> HasAccountWithOid(users, oid)
    ensures r.Some? ==> r.value.oid == oid && r.value in users.Values
  {
    if HasAccountWithOid(users, oid) then
      var k :| k in users && users[k].oid == oid;
      Some(users[k])
    else None
  }

  function KindOf(role: Role): Option<ProfileKind> {
    match role
    case Student => Some(StudentProfile)
    case Faculty => Some(FacultyProfile)
    case Admin => Some(AdminProfile)
    case SuperAdmin => None
  }

  /** `getMe(userId, role)`: the first record with the caller's custom id in
      the collection of the caller's role, with its account populated. Only
      the faculty collection's `findOne` hook hides tombstoned records; a
      super admin has no profile collection. */
  function GetMe(db: Db, userId: string, role: Role): (r: Option<Me>)
    reads db
    requires db.Valid()
    ensures role == SuperAdmin ==> r == None
    ensures r.Some? ==>
      && role != SuperAdmin
      && var ps := db.ProfilesOf(KindOf(role).value);
         && r.value.profile in ps.Values && r.value.profile.id == Some(userId)
         && (role == Faculty ==> Visible(r.value.profile))
    ensures r.None? && role != SuperAdmin ==>
      var ps := db.ProfilesOf(KindOf(role).value);
      forall o :: o in ps && ps[o].id == Some(userId) ==> role == Faculty && !Visible(ps[o])
    ensures r.Some? ==>
      (r.value.user.Some? <==> r.value.profile.user.Some? && HasAccountWithOid(db.users, r.value.profile.user.value))
    ensures r.Some? && r.value.user.Some? ==> r.value.user.value.oid == r.value.profile.user.value
    ensures r.Some? && r.value.user.Some? ==> r.value.user.value in db.users.Values
  {
    match KindOf(role)
    case None => None
    case Some(kind) =>
      var ps := db.ProfilesOf(kind);
      match FirstWithId(ps, userId, kind == FacultyProfile, 0, db.nextOid)
      case None => None
      case Some(o) =>
        var user := if ps[o].user.Some? then AccountWithOid(db.users, ps[o].user.value) else None;
        Some(Me(ps[o], user))
  }

  // ---------------------------------------------------------------------
  // Status change

  /** `changeStatus(id, {status})`: `User.findByIdAndUpdate` without update
      validators, so any status string is written. */
  method ChangeStatus(db: Db, oid: ObjectId, status: string) returns (r: Option<User>)
    requires db.Valid()
    modifies db`users
    ensures db.Valid()
    ensures db.users.Keys == old(db.users).Keys
    ensures forall k :: k in old(db.users) && old(db.users)[k].oid != oid ==> db.users[k] == old(db.users)[k]
    ensures forall k :: k in old(db.users) && old(db.users)[k].oid == oid ==>
      db.users[k] == old(db.users)[k].(status := status)
    ensures r.Some? <==> HasAccountWithOid(old(db.users), oid)
    ensures r.Some? ==> r.value.oid == oid && r.value.status == status && r.value in db.users.Values
  {
    var found := AccountWithOid(db.users, oid);
    db.users := UpdateByOid(db.users, oid, (u: User) => u.(status := status));
    if found.Some? {
      assert found.value.id in old(db.users);
      r := Some(db.users[found.value.id]);
    } else {
      r := None;
    }
  }

  /** Blocking an account through the status change shuts it out of login,
      unless it is deleted, which is reported first. */
  lemma BlockedAccountCannotLogIn(users: map<string, User>, oid: ObjectId, k: string, password: string, now: nat)
    requires k in users && users[k].oid == oid
    ensures var users' := UpdateByOid(users, oid, (u: User) => u.(status := BLOCKED));
      AuthService.LoginUser(users', AuthService.LoginPayload(k, password), now)
      == Err(AppError(FORBIDDEN, if users[k].isDeleted then AuthService.DELETED else "This user is blocked"))
  {
  }
}
